=== FILE: README.md ===
# Polish route model

A Dafny model of the text-polishing API route of the application, the POST
handler in `src/app/api/polish/route.ts`. The handler takes a JSON body with a
`text` and an optional `mode`. It answers:

- 400 for a missing, blank or over-long text;
- in mode `rewrite`, the text corrected by the LanguageTool grammar service.
  The service's matches are sorted by descending offset and spliced in one
  after another. When the service fails, the answer is a deterministic
  fallback formatter, `basicPolish`;
- in every other mode, the text rewritten by a chat-completion service
  (Groq) under a per-mode system prompt. When the reply has no content, the
  answer falls back to `basicPolish`. A reply that is not ok gives 500 "AI
  service error". Anything that throws gives 500 "AI processing failed".

The model has five modules, one per part of the route, and a sixth module of
worked examples:

- `Chars`: the character classes the formatter uses. Whitespace is the
  ECMAScript WhiteSpace and LineTerminator set, which `trim` and the regular
  expression class `\s` share. Uppercasing covers ASCII letters.
- `Polish`: `basicPolish` as its five steps (trim, collapse whitespace runs,
  delete whitespace before `. , ! ?`, uppercase the first character, append
  `.`). It also has an independent one-pass reference, `TidyScan`, for the
  first three steps.
- `Edits`: how the grammar-service matches are applied. This covers
  JavaScript's `slice` with its clamping and negative positions, the stable
  sort by descending offset, and the splice loop. A reference edit,
  `Patched`, replaces every region of a disjoint set of matches at once.
- `Prompts`: the mode-to-system-prompt switch.
- `Handler`: body parsing, validation, the mode default, both service
  branches and the error mapping. The two network services are function
  parameters, from the request the route would send to the outcome the route
  observes. Because of this, the handler is a pure function of the body and
  the two services.
- `Scenarios`: a general law for sentences of plain words, and concrete
  inputs worked through the model.

## Model

| member | source | states |
|---|---|---|
| Chars.ToUpper | src/app/api/polish/route.ts:144 | Uppercasing maps `a`-`z` to `A`-`Z` and fixes every other character, and its result is never a lower-case letter. |
| Chars.ToUpperKeepsClass | src/app/api/polish/route.ts:144 | Uppercasing the first character never turns it into or out of whitespace, `. , ! ?` or `. ! ?`, and is idempotent. |
| Chars.TerminalIsPunct | src/app/api/polish/route.ts:143-145 | The sentence-ending characters are among the characters whitespace is pulled up against, and none of those is whitespace. |
| Polish.NonSpace | src/app/api/polish/route.ts:140-147 | The non-whitespace content of a string is whitespace-free, no longer than the string, and empty exactly for blank strings. |
| Polish.TrimStart | src/app/api/polish/route.ts:141 | Dropping leading whitespace leaves a suffix that is empty or starts with non-whitespace, and shortens any string that starts with whitespace. |
| Polish.TrimEnd | src/app/api/polish/route.ts:141 | Dropping trailing whitespace leaves a prefix that is empty or ends with non-whitespace. |
| Polish.TrimStartRemovesSpace | src/app/api/polish/route.ts:141 | Everything the leading trim drops is whitespace. |
| Polish.TrimEndRemovesSpace | src/app/api/polish/route.ts:141 | Everything the trailing trim drops is whitespace. |
| Polish.TrimStartNonSpace | src/app/api/polish/route.ts:141 | The leading trim keeps all non-whitespace content. |
| Polish.TrimEndNonSpace | src/app/api/polish/route.ts:141 | The trailing trim keeps all non-whitespace content. |
| Polish.Trim | src/app/api/polish/route.ts:141 | `trim` leaves no whitespace at either end. |
| Polish.TrimSpec | src/app/api/polish/route.ts:141 | `trim` returns a contiguous middle part of its input, with only whitespace outside it. It keeps all non-whitespace content and is empty exactly for blank input. |
| Polish.TrimEmpty | src/app/api/polish/route.ts:203 | `trim` gives the empty string exactly when the input is blank, which is what the route's blank check tests. |
| Polish.TrimStartKeeps | src/app/api/polish/route.ts:141 | The leading trim never goes past the first non-whitespace character. |
| Polish.Collapse | src/app/api/polish/route.ts:142 | Collapsing whitespace runs never lengthens the text. It keeps the first character, or makes it a space when that character is whitespace. |
| Polish.CollapseSingleSpaced | src/app/api/polish/route.ts:142 | After collapsing, every whitespace character is a plain space followed by non-whitespace or by the end. |
| Polish.CollapseNonSpace | src/app/api/polish/route.ts:142 | Collapsing keeps every non-whitespace character, in order. |
| Polish.CollapseLast | src/app/api/polish/route.ts:142 | Collapsing keeps a non-whitespace last character. |
| Polish.CollapseFixed | src/app/api/polish/route.ts:142 | Single-spaced text is unchanged by collapsing. |
| Polish.DropSpaceBeforePunct | src/app/api/polish/route.ts:143 | The deletion never lengthens the text and keeps a non-whitespace first character. A leading `. , ! ?` in the result was the input's first non-whitespace character. |
| Polish.DropNoSpaceBeforePunct | src/app/api/polish/route.ts:143 | After the deletion, no whitespace stands directly before `. , ! ?`. |
| Polish.NoSpaceBeforePunctCons | src/app/api/polish/route.ts:143 | Putting a character in front keeps "no whitespace before punctuation" unless the character is whitespace landing before `. , ! ?`. |
| Polish.DropNonSpace | src/app/api/polish/route.ts:143 | The deletion removes only whitespace. |
| Polish.DropLast | src/app/api/polish/route.ts:143 | The deletion keeps a non-whitespace last character. |
| Polish.SingleSpacedCons | src/app/api/polish/route.ts:142 | Putting a character in front of single-spaced text keeps it single-spaced unless it makes two whitespace characters adjacent or is not a plain space. |
| Polish.DropSingleSpaced | src/app/api/polish/route.ts:142-143 | The deletion keeps collapsed text single-spaced. |
| Polish.DropFixed | src/app/api/polish/route.ts:143 | Text that is single-spaced with no whitespace before punctuation is unchanged by the deletion. |
| Polish.UpperFirst | src/app/api/polish/route.ts:144 | Only the first character changes, to its uppercase form, and the length is kept. |
| Polish.EnsureTerminal | src/app/api/polish/route.ts:145 | The result ends in `. ! ?`. Text already ending so is unchanged; any other text gets exactly one `.` appended. |
| Polish.Normalize | src/app/api/polish/route.ts:141-143 | The first three steps give the tidy shape: no edge whitespace, single plain spaces, none before `. , ! ?`. They keep all non-whitespace content and give an empty result exactly for blank input. |
| Polish.TidyUpperFirst | src/app/api/polish/route.ts:144 | Uppercasing the first character keeps the tidy shape. |
| Polish.TidyEnsureTerminal | src/app/api/polish/route.ts:145 | Appending the period keeps the tidy shape. |
| Polish.UpperFirstEndsTerminal | src/app/api/polish/route.ts:144-145 | Uppercasing the first character does not change whether the text ends in `. ! ?`. |
| Polish.UpperFirstContent | src/app/api/polish/route.ts:144 | On tidy text, uppercasing the first character uppercases the first non-whitespace character and keeps whether the text ends a sentence. |
| Polish.BasicPolish | src/app/api/polish/route.ts:140-147 | The result ends in `. ! ?`, has the tidy shape and does not start with a lower-case letter. Its non-whitespace content is the input's, first character uppercased, with `.` added exactly when that content does not end in `. ! ?`. Blank input gives ".". |
| Polish.BasicPolishFixedPoints | src/app/api/polish/route.ts:140-147 | `basicPolish` leaves a string unchanged exactly when the string is tidy, ends a sentence and does not start lower-case. |
| Polish.BasicPolishIdempotent | src/app/api/polish/route.ts:140-147 | Polishing twice gives the same as polishing once. |
| Polish.ScanSkipsRun | src/app/api/polish/route.ts:142 | The reference pass handles a whole whitespace run as it handles one whitespace character. |
| Polish.ScanAllSpace | src/app/api/polish/route.ts:141 | The reference pass emits nothing for whitespace-only text. |
| Polish.ScanTrailingSpace | src/app/api/polish/route.ts:141 | Trailing whitespace adds nothing to the reference pass. |
| Polish.ScanPunctIgnoresPending | src/app/api/polish/route.ts:143 | Before `. , ! ?` the reference pass emits no space, whether or not whitespace was skipped. |
| Polish.ScanTrimEnd | src/app/api/polish/route.ts:141 | Dropping trailing whitespace does not change the reference pass. |
| Polish.ScanTrim | src/app/api/polish/route.ts:141 | Trimming does not change the reference pass. |
| Polish.ScanCollapse | src/app/api/polish/route.ts:142 | Collapsing whitespace runs does not change the reference pass. |
| Polish.ScanDrop | src/app/api/polish/route.ts:143 | Deleting whitespace before punctuation does not change the reference pass. |
| Polish.SuffixKeepsShape | src/app/api/polish/route.ts:141-143 | Every suffix of single-spaced text with no whitespace before punctuation keeps both properties. |
| Polish.ScanOfTidyTail | src/app/api/polish/route.ts:141-143 | Once a non-whitespace character has been emitted, the reference pass reproduces the rest of tidy text exactly. |
| Polish.ScanOfTidy | src/app/api/polish/route.ts:141-143 | The reference pass is the identity on tidy text. |
| Polish.NormalizeIsTidyScan | src/app/api/polish/route.ts:141-143 | Trim, collapse and deletion together compute the one-pass reference: drop edge whitespace, and keep one space between non-whitespace characters except before `. , ! ?`. |
| Polish.BasicPolishEdits | src/app/api/polish/route.ts:140-147 | `basicPolish` is the reference pass's output with its first character uppercased and a `.` appended exactly when it does not end in `. ! ?`. |
| Polish.CapitaliseAndPunctuate | src/app/api/polish/route.ts:144-145 | The last two steps change only the first character and at most append one `.`. |
| Edits.RelativeIndex | src/app/api/polish/route.ts:238-240 | A slice position becomes an index in `[0, len]`. In-range positions are kept, negative ones count from the end and clamp at 0, and positions past the end clamp to the length. |
| Edits.Slice | src/app/api/polish/route.ts:238-240 | `slice` on in-range bounds is the substring between them, and never longer than the string. |
| Edits.SliceSplit | src/app/api/polish/route.ts:238-240 | The slices before and after any cut position, in range or not, put back together give the whole string. |
| Edits.ApplyMatch | src/app/api/polish/route.ts:236-241 | A match without suggestions leaves the text alone. A match inside the text replaces exactly its region with its first suggestion. |
| Edits.ApplyInOrder | src/app/api/polish/route.ts:235-242 | The forEach skips matches without a suggestion, so a loop over matches that all lack one leaves the text unchanged. Its partner is the reference edit (ApplyInOrderPatched). |
| Edits.Insert | src/app/api/polish/route.ts:233-234 | Insertion into the sorted list adds exactly the one element. |
| Edits.InsertAtMost | src/app/api/polish/route.ts:233-234 | Insertion keeps an upper bound on the offsets. |
| Edits.InsertDescending | src/app/api/polish/route.ts:233-234 | Insertion keeps the list in descending offset order. |
| Edits.SortByOffsetDesc | src/app/api/polish/route.ts:233-234 | The sort returns a permutation of the matches in descending offset order. |
| Edits.SortSameMatches | src/app/api/polish/route.ts:233-234 | The sort neither adds nor drops a match. |
| Edits.ApplyMatches | src/app/api/polish/route.ts:230-242 | Sorting and then splicing leaves the text unchanged when no match carries a suggestion, an empty match list included. For disjoint matches its partner law is ApplyMatchesPatches. |
| Edits.AtOffsetCons | src/app/api/polish/route.ts:233-234 | The matches at an offset in a list with a front element are that element, if at the offset, followed by those of the rest. |
| Edits.InsertKeepsTiesStep | src/app/api/polish/route.ts:233-234 | Inserting past an element with a larger offset keeps the order of the matches at any offset. |
| Edits.InsertKeepsTies | src/app/api/polish/route.ts:233-234 | An inserted match goes in front of the matches already at its offset and moves no others. |
| Edits.SortKeepsTies | src/app/api/polish/route.ts:233-234 | The sort is stable: matches at the same offset come out in their input order. |
| Edits.RestInBounds | src/app/api/polish/route.ts:233-242 | In a chained list, the later matches all fit in the text before the first match's region. |
| Edits.InsertEndBy | src/app/api/polish/route.ts:233-234 | Insertion keeps an upper bound on where the regions end. |
| Edits.InsertChained | src/app/api/polish/route.ts:233-234 | Inserting a match of non-negative length that is disjoint from every match of a chained, descending list with non-negative lengths keeps the list chained. |
| Edits.SortChained | src/app/api/polish/route.ts:233-234 | Sorting pairwise-disjoint matches with non-negative lengths gives a list where each match ends before the previous one starts. |
| Edits.ApplyMatchAppend | src/app/api/polish/route.ts:237-240 | A match inside a prefix edits the prefix and leaves whatever follows it alone. |
| Edits.ApplyMatchSplits | src/app/api/polish/route.ts:237-240 | A match inside the text gives the text before its region, then its replacement, then the text after. |
| Edits.ApplyInOrderAppend | src/app/api/polish/route.ts:235-242 | Matches inside a prefix edit only that prefix. |
| Edits.ApplyInOrderPatched | src/app/api/polish/route.ts:235-242 | The splice loop over a chained list of in-bounds matches equals the reference edit. |
| Edits.ApplyMatchesPatches | src/app/api/polish/route.ts:232-242 | For pairwise-disjoint in-bounds matches, sorting and splicing replace every region by its first suggestion at once and keep all text between regions. This is the reason end-to-start order is safe. |
| Edits.TiesApplyInGivenOrder | src/app/api/polish/route.ts:233-242 | Two matches at the same offset are applied in the order the service listed them. |
| Edits.InsertionLostAtTie | src/app/api/polish/route.ts:233-242 | Take an insertion and a replacement at the same offset, with the insertion listed first. The replacement overwrites the inserted text, so the pair is outside the disjointness the main law needs. |
| Prompts.SystemPromptByMode | src/app/api/polish/route.ts:152-195 | "resume", "linkedin" and "email" select their own templates exactly, by case-sensitive comparison. Every other mode string gets the prompt-clarity template. |
| Prompts.ModeOfSelects | src/app/api/polish/route.ts:152-195 | Every template is selected by the mode named for it. |
| Prompts.SelectedModeRoundTrip | src/app/api/polish/route.ts:152-195 | A mode survives the round trip through its template exactly when it is one of "resume", "linkedin", "email" and "prompt". |
| Handler.Status | src/app/api/polish/route.ts:203-301 | The two validation failures are exactly the 400 answers (lines 204, 208), and the two server-side failures (a non-ok completion reply, and the catch-all for anything that throws) exactly the 500 answers (lines 286-287, 299-300). |
| Handler.Message | src/app/api/polish/route.ts:204-300 | Every error answer carries a non-empty `error` message; MessagesDistinct shows the four are pairwise different. |
| Handler.Utf16Length | src/app/api/polish/route.ts:207 | A string's `length` is between its character count and twice that, and equals the character count when no character is outside the Basic Multilingual Plane. |
| Handler.CheckString | src/app/api/polish/route.ts:203-209 | A string text is required exactly when blank, too long exactly when non-blank and over 1000 code units, and accepted unchanged otherwise. |
| Handler.CheckText | src/app/api/polish/route.ts:199-209 | A missing or falsy text is required, a truthy non-string text throws into the catch-all answer, and a string is checked as above. |
| Handler.EffectiveMode | src/app/api/polish/route.ts:201 | A missing, empty or falsy mode becomes "prompt", a non-empty string mode is kept as it is, and exactly a truthy non-string mode matches no name. |
| Handler.ChatRequestFor | src/app/api/polish/route.ts:264-278 | The completion request carries the text unchanged as the user message and the mode's template as the system message, with model llama-3.1-8b-instant, temperature 0.3 and at most 200 tokens. |
| Handler.TemplateFor | src/app/api/polish/route.ts:269 | A named mode gets the switch's template; any other mode gets the default. |
| Handler.RewriteResponse | src/app/api/polish/route.ts:216-249 | The rewrite branch always answers 200. A grammar failure gives the basic polish, and matches without suggestions give the text back. |
| Handler.CompletionResponse | src/app/api/polish/route.ts:282-301 | The completion branch answers 200 exactly when the service's reply was ok and parsed as JSON, and the result is then never empty. A thrown call gives "AI processing failed", a non-ok reply "AI service error". Non-empty content is returned as it is; missing or empty content falls back to the basic polish. |
| Handler.Answer | src/app/api/polish/route.ts:216-295 | For an accepted text, rewrite mode always answers 200, another mode's 200 answer is never empty, and every error is a 500. |
| Handler.Handle | src/app/api/polish/route.ts:197-303 | A 400 answer comes exactly for a readable body whose text is blank or too long. Every 200 answer comes from an accepted text. An accepted text in rewrite mode always gets 200, and a 200 answer in any other mode is non-empty. |
| Handler.StringAccepted | src/app/api/polish/route.ts:203-209 | A string that passes the checks is accepted unchanged as the text field. |
| Handler.RewriteDispatch | src/app/api/polish/route.ts:216-227 | An accepted text in rewrite mode is answered from the grammar service's reply to the text with language en-US. |
| Handler.CompletionDispatch | src/app/api/polish/route.ts:256-280 | An accepted text in any other mode is answered from the completion service's reply. |
| Handler.MessagesDistinct | src/app/api/polish/route.ts:204-299 | The four error messages are pairwise different, so the client can tell the failures apart. |
| Handler.UnreadableBody | src/app/api/polish/route.ts:199-200 | A body that is not JSON, or is JSON null, gets the catch-all 500 answer. |
| Handler.BlankBeforeLength | src/app/api/polish/route.ts:203-209 | A blank text is reported as required, never as too long, whatever its length. |
| Handler.LengthBoundary | src/app/api/polish/route.ts:207-209 | A non-blank text of exactly 1000 code units is accepted, and one of 1001 is too long. |
| Handler.ModeDefaultsToPrompt | src/app/api/polish/route.ts:201 | A missing, empty or falsy mode gives the same answer as mode "prompt". |
| Handler.RejectionIgnoresServices | src/app/api/polish/route.ts:197-209 | A rejected or unreadable body gets an error answer that does not depend on either service. |
| Handler.ServicesByMode | src/app/api/polish/route.ts:216-280 | Rewrite mode consults only the grammar service, and only its reply to the text with language en-US. Every other mode consults only the completion service. |
| Handler.CompletionRequest | src/app/api/polish/route.ts:256-280 | A non-rewrite mode sends model llama-3.1-8b-instant, the mode's system prompt, the text as the user message, temperature 0.3 and at most 200 tokens. |
| Handler.RewriteOutcomes | src/app/api/polish/route.ts:216-249 | Rewrite mode answers with the basic polish when the grammar service fails, and otherwise with the matches applied. Disjoint in-bounds matches give the reference edit. |
| Handler.CompletionThrows | src/app/api/polish/route.ts:296-301 | A completion call that throws gives 500 "AI processing failed". |
| Handler.CompletionNotOk | src/app/api/polish/route.ts:282-289 | A non-ok completion reply gives 500 "AI service error". |
| Handler.CompletionWithoutContent | src/app/api/polish/route.ts:291-295 | A reply with missing or empty content gives the basic polish of the text. |
| Handler.CompletionWithContent | src/app/api/polish/route.ts:291-295 | A reply with non-empty content is answered with exactly that content. |
| Scenarios.ScanWord | src/app/api/polish/route.ts:141-143 | The reference pass copies a word unchanged when no whitespace is pending. |
| Scenarios.ScanWordAfterSpace | src/app/api/polish/route.ts:142-143 | After skipped whitespace, a plain word is emitted with one space in front. |
| Scenarios.ScanSpace | src/app/api/polish/route.ts:142 | A single space emits nothing; it only marks whitespace as pending, and only once something has been emitted. |
| Scenarios.ScanJoinInnerStep | src/app/api/polish/route.ts:142 | One step of the induction over space-joined plain words. |
| Scenarios.ScanJoinInner | src/app/api/polish/route.ts:142-143 | With whitespace pending after emitted text, the reference pass reproduces space-joined plain words behind one space. |
| Scenarios.ScanJoin | src/app/api/polish/route.ts:141-143 | The reference pass reproduces plain words joined by single spaces. |
| Scenarios.ScanLeadingSpace | src/app/api/polish/route.ts:141 | Leading whitespace does not change the reference pass. |
| Scenarios.NormalizeSentence | src/app/api/polish/route.ts:141-143 | Plain words joined by single spaces, with blank padding on both sides, come out of the first three steps with the padding removed. |
| Scenarios.UpperFirstAppend | src/app/api/polish/route.ts:144 | Uppercasing the first character of a concatenation touches only the first part. |
| Scenarios.CapitaliseSentence | src/app/api/polish/route.ts:144-145 | The last two steps on a joined sentence uppercase its first word and add `.` exactly when the last word does not end a sentence. |
| Scenarios.SentencePolish | src/app/api/polish/route.ts:140-147 | A padded sentence of plain words polishes to the sentence, first letter uppercased, with `.` added exactly when the last word does not end in `. ! ?`. |
| Scenarios.JoinLast | src/app/api/polish/route.ts:145 | A joined sentence ends with the last character of its last word. |
| Scenarios.ReportWords | src/app/api/polish/route.ts:140-147 | The eight words of the report example are plain words. |
| Scenarios.ReportCapital | src/app/api/polish/route.ts:144 | Uppercasing the report example's sentence uppercases only its first word. |
| Scenarios.ReportSentence | src/app/api/polish/route.ts:140-147 | "  the report need to be done by friday  " polishes to "The report need to be done by friday.". |
| Scenarios.HelloScan | src/app/api/polish/route.ts:141-143 | "hello" needs no whitespace changes. |
| Scenarios.HelloCapital | src/app/api/polish/route.ts:144-145 | The last two steps turn "hello" into "Hello.". |
| Scenarios.Hello | src/app/api/polish/route.ts:140-147 | "hello" polishes to "Hello.". |
| Scenarios.AlreadyDoneWords | src/app/api/polish/route.ts:140-147 | The words of "Already done." are plain words. |
| Scenarios.AlreadyDoneCapital | src/app/api/polish/route.ts:144 | Uppercasing leaves "Already done." alone. |
| Scenarios.AlreadyDone | src/app/api/polish/route.ts:140-147 | "Already done." is returned unchanged. |
| Scenarios.HelloAccepted | src/app/api/polish/route.ts:203-209 | "hello" passes validation. |
| Scenarios.RewriteHelloOffline | src/app/api/polish/route.ts:245-248 | In rewrite mode with the grammar service down, "hello" is answered with "Hello.". |
| Scenarios.OneCorrection | src/app/api/polish/route.ts:232-242 | A single match on "go" in "He go home." with suggestions "goes" and "went" gives "He goes home.". |

## Left out

- Transport: the HTTP framework, `NextResponse`, environment variables (the API key), logging and the network are outside the model. The two services are parameters, and the handler's answer is a status with a `result` or `error` payload.
- Reading the error body of a non-ok completion reply (`response.text()`): the model does not have it throw. Its text is only logged.
- The completion reply's content is modelled as a string or missing. A truthy non-string content would be passed through as it is, and is not modelled.
- A match's first suggestion is modelled as a string. The route concatenates `m.replacements[0].value` as it is: a missing value splices the text "undefined", and a number splices its decimal text. Neither throws. Other shapes do throw and fall back to the basic polish: a `matches` member that is not an array, a null element of `matches` (the comparator reads `b.offset`, and `m.replacements` is read unguarded), a null first replacement, and a `replacements` value with a truthy `length` but no element 0 (reading `.value`). These non-string values are not modelled; the throwing cases are covered by "the grammar service failed".
- Offsets and lengths are integers, and they index characters (code points). JavaScript indexes UTF-16 code units, so the two agree only on text inside the Basic Multilingual Plane. Non-integer or NaN offsets are not modelled. The length check does count UTF-16 code units (`Handler.Utf16Length`).
- Chars.ToUpper: uppercasing covers ASCII letters only. JavaScript's `toUpperCase` also maps other scripts, and can turn one character into several.
- The wording of the four system prompts is not modelled: a template is one of four values, and what the route selects is which one.
- The commented-out earlier version of the route (route.ts lines 1-132) is dead code and is not modelled. This includes its `tone` parameter.
- The browser page that calls the route is not part of this model.
- Edits.ApplyMatchesPatches: the "each match replaces its own region" law needs pairwise-disjoint matches inside the text. Overlapping matches, out-of-range matches and a pure insertion at the same offset as a match of positive length (two pure insertions at one offset are covered) are only modelled as the route computes them, with no law stated. `Edits.InsertionLostAtTie` shows why the last of these needs excluding.
- A completion call that throws, or whose reply is not JSON, is modelled as the code does it: a 500 "AI processing failed" answer.

=== FILE: chars.dfy ===
/** Character classes used by the fallback polisher.

    The polisher runs on JavaScript strings: `trim` and the regular-expression
    class `\s` both remove exactly the ECMAScript WhiteSpace and LineTerminator
    code points, so one predicate serves both. Uppercasing is modelled on ASCII
    letters only.
 */
module Chars {

  /** ECMAScript WhiteSpace (TAB, VT, FF, SP, NBSP, ZWNBSP and the Zs category)
      together with LineTerminator (LF, CR, LS, PS). */
  predicate IsSpace(c: char) {
    || ('\t' <= c <= '\r')                // TAB, LF, VT, FF, CR
    || c == ' '
    || c == '\U{00A0}'                    // NO-BREAK SPACE
    || c == '\U{1680}'                    // OGHAM SPACE MARK
    || ('\U{2000}' <= c <= '\U{200A}')   // EN QUAD .. HAIR SPACE
    || c == '\U{2028}' || c == '\U{2029}' // LINE / PARAGRAPH SEPARATOR
    || c == '\U{202F}' || c == '\U{205F}' // NARROW NBSP, MEDIUM MATHEMATICAL SPACE
    || c == '\U{3000}'                    // IDEOGRAPHIC SPACE
    || c == '\U{FEFF}'                    // ZERO WIDTH NO-BREAK SPACE
  }

  /** The characters `. , ! ?` that the polisher pulls whitespace up against. */
  predicate IsPunct(c: char) {
    c == '.' || c == ',' || c == '!' || c == '?'
  }

  /** The characters `. ! ?` that count as ending a sentence. */
  predicate IsTerminal(c: char) {
    c == '.' || c == '!' || c == '?'
  }

  predicate IsLower(c: char) {
    'a' <= c <= 'z'
  }

  /** ASCII model of `toUpperCase` on one character. */
  function ToUpper(c: char): (u: char)
    ensures IsLower(c) ==> 'A' <= u <= 'Z' && u as int == c as int - 32
    ensures !IsLower(c) ==> u == c
    ensures !IsLower(u)
  {
    if IsLower(c) then (c as int - 32) as char else c
  }

  /** Uppercasing never changes which class a character belongs to, and a
      second application changes nothing. */
  lemma ToUpperKeepsClass(c: char)
    ensures IsSpace(ToUpper(c)) <==> IsSpace(c)
    ensures IsPunct(ToUpper(c)) <==> IsPunct(c)
    ensures IsTerminal(ToUpper(c)) <==> IsTerminal(c)
    ensures ToUpper(ToUpper(c)) == ToUpper(c)
  {
  }

  lemma TerminalIsPunct(c: char)
    ensures IsTerminal(c) ==> IsPunct(c)
    ensures IsPunct(c) ==> !IsSpace(c)
  {
  }
}

=== FILE: edits.dfy ===
/** The rewrite mode's application of grammar-service matches.

    The grammar service answers with a list of matches, each naming a region
    `[offset, offset + length)` of the submitted text and a ranked list of
    replacement suggestions. The route sorts the matches by descending offset
    (a stable sort) and, for every match that has at least one suggestion,
    splices the first suggestion in place of the region, working on the text
    as already changed by the matches before it.
 */
module Edits {

  datatype Match = Match(offset: int, length: int, replacements: seq<string>)

  /** End of the region a match names. */
  function End(m: Match): int {
    m.offset + m.length
  }

  // ---------------------------------------------------------------------------
  // JavaScript's String.prototype.slice
  // ---------------------------------------------------------------------------

  /** A slice position as `slice` interprets it on a string of length len:
      negative positions count from the end, and the result is clamped to
      [0, len]. */
  function RelativeIndex(pos: int, len: nat): (i: nat)
    ensures i <= len
    ensures 0 <= pos <= len ==> i == pos
    ensures pos < 0 ==> i == if len + pos < 0 then 0 else len + pos
    ensures pos > len ==> i == len
  {
    if pos < 0 then (if len + pos < 0 then 0 else len + pos)
    else if pos > len then len
    else pos
  }

  /** `s.slice(start, end)`. */
  function Slice(s: string, start: int, end: int): (r: string)
    ensures 0 <= start <= end <= |s| ==> r == s[start..end]
    ensures |r| <= |s|
  {
    var from := RelativeIndex(start, |s|);
    var to := RelativeIndex(end, |s|);
    if from < to then s[from..to] else []
  }

  /** Cutting a string at any position, in range or not, and gluing the two
      slices back together gives the string back. */
  lemma SliceSplit(s: string, k: int)
    ensures Slice(s, 0, k) + Slice(s, k, |s|) == s
  {
    var i := RelativeIndex(k, |s|);
    assert Slice(s, 0, k) == s[..i];
    assert Slice(s, k, |s|) == s[i..];
  }

  // ---------------------------------------------------------------------------
  // Applying matches
  // ---------------------------------------------------------------------------

  /** One step of the loop: a match with a suggestion has its first suggestion
      spliced in; a match without one leaves the text alone. */
  function ApplyMatch(text: string, m: Match): (r: string)
    ensures |m.replacements| == 0 ==> r == text
    ensures 0 <= m.offset <= End(m) <= |text| && |m.replacements| > 0 ==>
              r == text[..m.offset] + m.replacements[0] + text[End(m)..]
  {
    if |m.replacements| > 0 then
      Slice(text, 0, m.offset) + m.replacements[0] + Slice(text, End(m), |text|)
    else
      text
  }

  /** No match of ms carries a suggestion. */
  predicate NoSuggestions(ms: seq<Match>) {
    forall m :: m in ms ==> |m.replacements| == 0
  }

  /** The forEach over the already sorted matches. Matches without a
      suggestion are skipped, so when none has one the text comes back
      unchanged. */
  function ApplyInOrder(text: string, ms: seq<Match>): (r: string)
    ensures NoSuggestions(ms) ==> r == text
    decreases |ms|
  {
    if ms == [] then text
    else
      assert ms[0] in ms;
      ApplyInOrder(ApplyMatch(text, ms[0]), ms[1..])
  }

  /** Offsets never increase along ms. */
  predicate Descending(ms: seq<Match>) {
    forall i, j :: 0 <= i < j < |ms| ==> ms[i].offset >= ms[j].offset
  }

  /** Stable insertion into a list sorted by descending offset: m goes in front
      of the first element whose offset is not larger than its own. */
  function Insert(m: Match, sorted: seq<Match>): (r: seq<Match>)
    ensures multiset(r) == multiset(sorted) + multiset{m}
    decreases |sorted|
  {
    if sorted == [] || m.offset >= sorted[0].offset then
      [m] + sorted
    else
      assert sorted == [sorted[0]] + sorted[1..];
      [sorted[0]] + Insert(m, sorted[1..])
  }

  /** Every element of a list has an offset at most b. */
  predicate AllAtMost(ms: seq<Match>, b: int) {
    forall i :: 0 <= i < |ms| ==> ms[i].offset <= b
  }

  lemma {:induction false} InsertAtMost(m: Match, sorted: seq<Match>, b: int)
    requires AllAtMost(sorted, b) && m.offset <= b
    ensures AllAtMost(Insert(m, sorted), b)
    decreases |sorted|
  {
    if sorted == [] || m.offset >= sorted[0].offset {
    } else {
      InsertAtMost(m, sorted[1..], b);
    }
  }

  lemma {:induction false} InsertDescending(m: Match, sorted: seq<Match>)
    requires Descending(sorted)
    ensures Descending(Insert(m, sorted))
    decreases |sorted|
  {
    if sorted == [] || m.offset >= sorted[0].offset {
    } else {
      InsertDescending(m, sorted[1..]);
      InsertAtMost(m, sorted[1..], sorted[0].offset);
    }
  }

  /** `matches.sort((a, b) => b.offset - a.offset)`: a permutation of the
      matches with offsets in descending order. The sort is stable, as
      ECMAScript requires (SortKeepsTies). */
  function SortByOffsetDesc(ms: seq<Match>): (r: seq<Match>)
    ensures Descending(r)
    ensures multiset(r) == multiset(ms)
    decreases |ms|
  {
    if ms == [] then []
    else
      assert ms == [ms[0]] + ms[1..];
      InsertDescending(ms[0], SortByOffsetDesc(ms[1..]));
      Insert(ms[0], SortByOffsetDesc(ms[1..]))
  }

  /** The sort neither adds nor drops a match. */
  lemma SortSameMatches(ms: seq<Match>)
    ensures forall m :: m in SortByOffsetDesc(ms) <==> m in ms
  {
    var sorted := SortByOffsetDesc(ms);
    forall m ensures m in sorted <==> m in ms {
      assert m in sorted <==> m in multiset(sorted);
      assert m in ms <==> m in multiset(ms);
    }
  }

  /** The rewrite branch's result for the grammar service's matches. When no
      match carries a suggestion (in particular, when there are no matches)
      the text comes back unchanged. */
  function ApplyMatches(text: string, matches: seq<Match>): (r: string)
    ensures NoSuggestions(matches) ==> r == text
  {
    SortSameMatches(matches);
    ApplyInOrder(text, SortByOffsetDesc(matches))
  }

  // ---------------------------------------------------------------------------
  // Stability of the sort
  // ---------------------------------------------------------------------------

  /** The matches of ms at offset o, in their order in ms. */
  function AtOffset(ms: seq<Match>, o: int): seq<Match>
    decreases |ms|
  {
    if ms == [] then []
    else (if ms[0].offset == o then [ms[0]] else []) + AtOffset(ms[1..], o)
  }

  /** The part of AtOffset that one element contributes. */
  function Tie(m: Match, o: int): seq<Match> {
    if m.offset == o then [m] else []
  }

  lemma AtOffsetCons(m: Match, ms: seq<Match>, o: int)
    ensures AtOffset([m] + ms, o) == Tie(m, o) + AtOffset(ms, o)
  {
    assert ([m] + ms)[1..] == ms;
  }

  /** Insertion past an element with a larger offset. */
  lemma InsertKeepsTiesStep(m: Match, x: Match, rest: seq<Match>, o: int)
    requires m.offset < x.offset
    requires AtOffset(Insert(m, rest), o) == Tie(m, o) + AtOffset(rest, o)
    ensures AtOffset([x] + Insert(m, rest), o) == Tie(m, o) + AtOffset([x] + rest, o)
  {
    AtOffsetCons(x, Insert(m, rest), o);
    AtOffsetCons(x, rest, o);
    var a := AtOffset(rest, o);
    if x.offset == o {
      assert Tie(m, o) + a == a;
      assert Tie(m, o) + ([x] + a) == [x] + a;
    } else {
      assert Tie(x, o) + (Tie(m, o) + a) == Tie(m, o) + a;
    }
  }

  lemma {:induction false} InsertKeepsTies(m: Match, sorted: seq<Match>, o: int)
    ensures AtOffset(Insert(m, sorted), o) == Tie(m, o) + AtOffset(sorted, o)
    decreases |sorted|
  {
    if sorted == [] || m.offset >= sorted[0].offset {
      AtOffsetCons(m, sorted, o);
    } else {
      assert sorted == [sorted[0]] + sorted[1..];
      InsertKeepsTies(m, sorted[1..], o);
      InsertKeepsTiesStep(m, sorted[0], sorted[1..], o);
    }
  }

  /** Matches at the same offset keep their relative order through the sort. */
  lemma {:induction false} SortKeepsTies(ms: seq<Match>, o: int)
    ensures AtOffset(SortByOffsetDesc(ms), o) == AtOffset(ms, o)
    decreases |ms|
  {
    if ms != [] {
      SortKeepsTies(ms[1..], o);
      InsertKeepsTies(ms[0], SortByOffsetDesc(ms[1..]), o);
    }
  }

  // ---------------------------------------------------------------------------
  // Disjoint matches
  // ---------------------------------------------------------------------------

  /** The region of m lies inside a text of length n. */
  predicate InBounds(m: Match, n: int) {
    0 <= m.offset && 0 <= m.length && End(m) <= n
  }

  predicate AllInBounds(ms: seq<Match>, n: int) {
    forall m :: m in ms ==> InBounds(m, n)
  }

  /** Two regions that do not overlap; two matches at the same offset are
      separated only when both are pure insertions. */
  predicate Separated(a: Match, b: Match) {
    if a.offset == b.offset then a.length == 0 && b.length == 0
    else End(a) <= b.offset || End(b) <= a.offset
  }

  /** Every two matches at different positions of ms are separated. */
  predicate Disjoint(ms: seq<Match>) {
    forall i, j :: 0 <= i < |ms| && 0 <= j < |ms| && i != j ==> Separated(ms[i], ms[j])
  }

  /** Every later match ends before any earlier one starts: the shape of a
      sorted list of disjoint matches. */
  predicate Chained(ms: seq<Match>) {
    forall i, j :: 0 <= i < j < |ms| ==> End(ms[j]) <= ms[i].offset
  }

  /** What ends up in place of m's region: its first suggestion, or the
      region itself when there is none. */
  function Region(text: string, m: Match): string
    requires InBounds(m, |text|)
  {
    if |m.replacements| > 0 then m.replacements[0] else text[m.offset..End(m)]
  }

  /** In a chained list, everything after the head fits before the head's
      offset. */
  lemma RestInBounds(ms: seq<Match>, n: int)
    requires ms != [] && Chained(ms) && AllInBounds(ms, n)
    ensures AllInBounds(ms[1..], ms[0].offset)
  {
    assert ms[0] in ms;
    forall x | x in ms[1..] ensures InBounds(x, ms[0].offset) {
      var j :| 0 <= j < |ms[1..]| && ms[1..][j] == x;
      assert ms[j + 1] == x && x in ms;
    }
  }

  /** The edit the route means to make: every region replaced by its first
      suggestion (or left as it is), and all text between regions kept. */
  function Patched(text: string, ms: seq<Match>): (r: string)
    requires Chained(ms) && AllInBounds(ms, |text|)
    decreases |ms|
  {
    if ms == [] then text
    else
      var m := ms[0];
      assert m in ms;
      RestInBounds(ms, |text|);
      Patched(text[..m.offset], ms[1..]) + Region(text, m) + text[End(m)..]
  }

  /** Every element of a list ends at or before b. */
  predicate AllEndBy(ms: seq<Match>, b: int) {
    forall i :: 0 <= i < |ms| ==> End(ms[i]) <= b
  }

  lemma {:induction false} InsertEndBy(m: Match, sorted: seq<Match>, b: int)
    requires AllEndBy(sorted, b) && End(m) <= b
    ensures AllEndBy(Insert(m, sorted), b)
    decreases |sorted|
  {
    if sorted == [] || m.offset >= sorted[0].offset {
    } else {
      InsertEndBy(m, sorted[1..], b);
    }
  }

  lemma {:induction false} InsertChained(m: Match, sorted: seq<Match>)
    requires Chained(sorted) && Descending(sorted)
    requires 0 <= m.length && forall i :: 0 <= i < |sorted| ==> 0 <= sorted[i].length
    requires forall i :: 0 <= i < |sorted| ==> Separated(m, sorted[i])
    ensures Chained(Insert(m, sorted))
    decreases |sorted|
  {
    if sorted == [] || m.offset >= sorted[0].offset {
      assert forall j :: 0 <= j < |sorted| ==> End(sorted[j]) <= m.offset by {
        forall j | 0 <= j < |sorted| ensures End(sorted[j]) <= m.offset {
          assert Separated(m, sorted[j]);
        }
      }
    } else {
      assert Separated(m, sorted[0]);
      InsertChained(m, sorted[1..]);
      assert AllEndBy(sorted[1..], sorted[0].offset);
      InsertEndBy(m, sorted[1..], sorted[0].offset);
    }
  }

  /** Sorting disjoint matches with non-negative lengths lines them up so that
      each ends before the previous one starts. */
  lemma {:induction false} SortChained(ms: seq<Match>)
    requires Disjoint(ms)
    requires forall m :: m in ms ==> 0 <= m.length
    ensures Chained(SortByOffsetDesc(ms))
    decreases |ms|
  {
    if ms != [] {
      var rest := SortByOffsetDesc(ms[1..]);
      assert Disjoint(ms[1..]) by {
        forall i, j | 0 <= i < |ms[1..]| && 0 <= j < |ms[1..]| && i != j
          ensures Separated(ms[1..][i], ms[1..][j])
        {
          assert Separated(ms[i + 1], ms[j + 1]);
        }
      }
      SortChained(ms[1..]);
      forall i | 0 <= i < |rest| ensures Separated(ms[0], rest[i]) && 0 <= rest[i].length {
        assert rest[i] in multiset(ms[1..]);
        var j :| 0 <= j < |ms[1..]| && ms[1..][j] == rest[i];
        assert Separated(ms[0], ms[j + 1]);
        assert ms[j + 1] in ms;
      }
      assert ms[0] in ms;
      InsertChained(ms[0], rest);
    }
  }

  /** One splice applied to a text with a tail appended leaves the tail alone. */
  lemma ApplyMatchAppend(p: string, q: string, m: Match)
    requires InBounds(m, |p|)
    ensures ApplyMatch(p + q, m) == ApplyMatch(p, m) + q
    ensures m.offset <= |ApplyMatch(p, m)|
  {
    if |m.replacements| > 0 {
      assert (p + q)[..m.offset] == p[..m.offset];
      assert (p + q)[End(m)..] == p[End(m)..] + q;
    }
  }

  /** One splice keeps the text before the region and after it. */
  lemma ApplyMatchSplits(text: string, m: Match)
    requires InBounds(m, |text|)
    ensures ApplyMatch(text, m) == text[..m.offset] + (Region(text, m) + text[End(m)..])
  {
    if |m.replacements| == 0 {
      assert text == text[..m.offset] + text[m.offset..End(m)] + text[End(m)..];
    }
  }

  lemma {:induction false} ApplyInOrderAppend(p: string, q: string, ms: seq<Match>)
    requires Chained(ms) && AllInBounds(ms, |p|)
    ensures ApplyInOrder(p + q, ms) == ApplyInOrder(p, ms) + q
    decreases |ms|
  {
    if ms != [] {
      var m := ms[0];
      assert m in ms;
      ApplyMatchAppend(p, q, m);
      RestInBounds(ms, |p|);
      ApplyInOrderAppend(ApplyMatch(p, m), q, ms[1..]);
    }
  }

  /** Applying chained in-bounds matches in order makes exactly the edit
      Patched describes. */
  lemma {:induction false} ApplyInOrderPatched(text: string, ms: seq<Match>)
    requires Chained(ms) && AllInBounds(ms, |text|)
    ensures ApplyInOrder(text, ms) == Patched(text, ms)
    decreases |ms|
  {
    if ms != [] {
      var m := ms[0];
      assert m in ms;
      ApplyMatchSplits(text, m);
      RestInBounds(ms, |text|);
      ApplyInOrderAppend(text[..m.offset], Region(text, m) + text[End(m)..], ms[1..]);
      ApplyInOrderPatched(text[..m.offset], ms[1..]);
    }
  }

  /** For disjoint matches inside the text, the route replaces every region by
      its first suggestion and keeps the rest of the text. */
  lemma ApplyMatchesPatches(text: string, matches: seq<Match>)
    requires Disjoint(matches) && AllInBounds(matches, |text|)
    ensures Chained(SortByOffsetDesc(matches))
    ensures AllInBounds(SortByOffsetDesc(matches), |text|)
    ensures ApplyMatches(text, matches) == Patched(text, SortByOffsetDesc(matches))
  {
    var sorted := SortByOffsetDesc(matches);
    forall m | m in sorted ensures InBounds(m, |text|) {
      assert m in multiset(sorted);
    }
    SortChained(matches);
    ApplyInOrderPatched(text, sorted);
  }

  /** Two matches at one offset are applied in the order they were given. */
  lemma TiesApplyInGivenOrder(text: string, a: Match, b: Match)
    requires a.offset == b.offset
    ensures ApplyMatches(text, [a, b]) == ApplyMatch(ApplyMatch(text, a), b)
  {
    assert [a, b][1..] == [b];
    assert SortByOffsetDesc([a, b]) == [a, b];
    assert ApplyInOrder(text, [a, b]) == ApplyInOrder(ApplyMatch(text, a), [b]);
  }

  /** Why Separated asks both matches at one offset to be insertions: an
      insertion listed before a longer match at the same offset is applied
      first, and the longer match then overwrites the inserted text instead
      of the region it named. */
  lemma InsertionLostAtTie(text: string, a: Match, b: Match)
    requires text == "abcd" && a == Match(1, 0, ["X"]) && b == Match(1, 2, ["Y"])
    ensures !Separated(a, b)
    ensures ApplyMatches(text, [a, b]) == "aYcd"
  {
    TiesApplyInGivenOrder(text, a, b);
    InsertAtOne(text, a);
    ReplaceAtOne("aXbcd", b);
  }

  lemma InsertAtOne(text: string, a: Match)
    requires text == "abcd" && a == Match(1, 0, ["X"])
    ensures ApplyMatch(text, a) == "aXbcd"
  {
    assert text[..1] == "a" && text[1..] == "bcd";
  }

  lemma ReplaceAtOne(t: string, b: Match)
    requires t == "aXbcd" && b == Match(1, 2, ["Y"])
    ensures ApplyMatch(t, b) == "aYcd"
  {
    assert t[..1] == "a" && t[3..] == "cd";
  }
}

=== FILE: handler.dfy ===
/** The POST handler of the polish route.

    The handler reads a JSON body with a `text` and a `mode` field, rejects a
    missing, blank or over-long text, and then either corrects the text with
    the grammar service (mode "rewrite") or asks the completion service to
    rewrite it under the system prompt of the mode. The two services are
    parameters: each is a function from the request the route sends to the
    outcome the route observes.
 */
module Handler {
  import opened Chars
  import opened Polish
  import opened Edits
  import opened Prompts

  datatype Option<T> = None | Some(value: T)

  // ---------------------------------------------------------------------------
  // Requests and responses
  // ---------------------------------------------------------------------------

  /** One field of the parsed body as JavaScript sees it: missing (undefined or
      null), a string, or some other JSON value, of which only its truthiness
      matters to the route. */
  datatype Field = Absent | Str(s: string) | Other(truthy: bool)

  /** The request body. A body that is not JSON makes `req.json()` throw; a
      JSON null makes reading `body.text` throw. Any other JSON value that is
      not an object has neither field, which Fields(Absent, Absent) models. */
  datatype Body = NotJson | NullBody | Fields(text: Field, mode: Field)

  /** The four error answers of the route. */
  datatype Failure = TextRequired | TextTooLong | ServiceError | ProcessingFailed

  /** The HTTP status of each error answer: the validation failures are
      client errors, the others server errors. */
  function Status(f: Failure): (s: int)
    ensures s == 400 <==> f == TextRequired || f == TextTooLong
    ensures s == 500 <==> f == ServiceError || f == ProcessingFailed
  {
    match f
    case TextRequired => 400
    case TextTooLong => 400
    case ServiceError => 500
    case ProcessingFailed => 500
  }

  /** The `error` member of each error answer's JSON body; no answer has an
      empty one. */
  function Message(f: Failure): (m: string)
    ensures |m| > 0
  {
    match f
    case TextRequired => "Text is required"
    case TextTooLong => "Text too long"
    case ServiceError => "AI service error"
    case ProcessingFailed => "AI processing failed"
  }

  /** `{ result }` with status 200, or `{ error }` with the failure's status. */
  datatype Response = Ok(result: string) | Error(failure: Failure)

  /** What the route learns from the grammar service: the list of matches, or
      a failure (the request threw, the reply was not JSON, or it had no
      `matches` array). */
  datatype GrammarOutcome = GrammarFailed | GrammarMatches(matches: seq<Match>)

  /** What the route learns from the completion service: a failure (the
      request threw or the reply was not JSON), a reply whose status is not
      ok, or the content of the first choice's message, None when any link of
      `choices[0].message.content` is missing. */
  datatype CompletionOutcome = CompletionFailed | NotOk | Completed(content: Option<string>)

  datatype GrammarRequest = GrammarRequest(text: string, language: string)

  datatype ChatRequest = ChatRequest(
    model: string,
    system: Template,
    user: string,
    temperatureTenths: nat,
    maxTokens: nat)

  const MaxLength: nat := 1000
  const Language := "en-US"
  const ChatModel := "llama-3.1-8b-instant"
  const TemperatureTenths: nat := 3
  const MaxTokens: nat := 200

  // ---------------------------------------------------------------------------
  // String length
  // ---------------------------------------------------------------------------

  /** `length` of a JavaScript string: the number of UTF-16 code units, two
      for every character outside the Basic Multilingual Plane. */
  function Utf16Length(s: string): (n: nat)
    ensures |s| <= n <= 2 * |s|
    ensures (forall i :: 0 <= i < |s| ==> s[i] as int < 0x1_0000) ==> n == |s|
    decreases |s|
  {
    if s == [] then 0
    else (if s[0] as int < 0x1_0000 then 1 else 2) + Utf16Length(s[1..])
  }

  // ---------------------------------------------------------------------------
  // Validation
  // ---------------------------------------------------------------------------

  /** The text fields the route answers with "Text is required". */
  predicate Blank(f: Field) {
    f.Absent? || f == Other(false) || (f.Str? && AllSpace(f.s))
  }

  /** The text fields the route answers with "Text too long". */
  predicate TooLong(f: Field) {
    f.Str? && !AllSpace(f.s) && Utf16Length(f.s) > MaxLength
  }

  /** A string text that passes both guards: not blank, and at most
      MaxLength code units long. */
  predicate Admissible(s: string) {
    !AllSpace(s) && Utf16Length(s) <= MaxLength
  }

  datatype Checked = Accepted(text: string) | Rejected(failure: Failure)

  /** The two guards on a string `text`: `!text || !text.trim()` first, then
      the length, so a blank text is never reported as too long. The first
      guard is written as AllSpace(s): TrimEmpty shows that trimming leaves
      the empty string exactly for such text (the empty string included). */
  function CheckString(s: string): (c: Checked)
    ensures c == Rejected(TextRequired) <==> AllSpace(s)
    ensures c == Rejected(TextTooLong) <==> !AllSpace(s) && Utf16Length(s) > MaxLength
    ensures c.Accepted? <==> Admissible(s)
    ensures c.Accepted? ==> c.text == s
  {
    if AllSpace(s) then Rejected(TextRequired)
    else if Utf16Length(s) > MaxLength then Rejected(TextTooLong)
    else Accepted(s)
  }

  /** The guards on the `text` field. A falsy field is required; a truthy
      value that is not a string has no `trim`, so the call throws and the
      handler's catch answers. */
  function CheckText(f: Field): (c: Checked)
    ensures c.Accepted? <==> f.Str? && Admissible(f.s)
    ensures c.Accepted? ==> c.text == f.s
    ensures c == Rejected(TextRequired) <==> Blank(f)
    ensures c == Rejected(TextTooLong) <==> TooLong(f)
    ensures c == Rejected(ProcessingFailed) <==> f.Other? && f.truthy
  {
    match f
    case Absent => Rejected(TextRequired)
    case Other(truthy) => if truthy then Rejected(ProcessingFailed) else Rejected(TextRequired)
    case Str(s) => CheckString(s)
  }

  // ---------------------------------------------------------------------------
  // Mode
  // ---------------------------------------------------------------------------

  /** The mode after `body.mode || "prompt"`: a name, or a truthy value that is
      not a string and so equals none of the names the route compares with. */
  datatype ModeValue = Named(name: string) | Unnamed

  function EffectiveMode(f: Field): (m: ModeValue)
    ensures m == Unnamed <==> f.Other? && f.truthy
    ensures f.Str? && f.s != "" ==> m == Named(f.s)
    ensures f.Absent? || f == Str("") || f == Other(false) ==> m == Named("prompt")
    ensures m.Named? && m.name != "prompt" ==> f == Str(m.name)
    ensures m.Named? ==> m.name != ""
  {
    match f
    case Str(s) => if s == "" then Named("prompt") else Named(s)
    case Other(truthy) => if truthy then Unnamed else Named("prompt")
    case Absent => Named("prompt")
  }

  predicate IsRewrite(m: ModeValue) {
    m == Named("rewrite")
  }

  /** The system prompt for the mode; an unnamed mode falls to the default. */
  function TemplateFor(m: ModeValue): (t: Template)
    ensures m.Named? ==> t == SystemPromptByMode(m.name)
    ensures m == Unnamed ==> t == PromptClarity
  {
    match m
    case Named(name) => SystemPromptByMode(name)
    case Unnamed => PromptClarity
  }

  /** The completion request: the text as the user message under the mode's
      system prompt, with the fixed model, temperature and token budget. */
  function ChatRequestFor(text: string, m: ModeValue): (r: ChatRequest)
    ensures r.user == text
    ensures m.Named? ==> r.system == SystemPromptByMode(m.name)
    ensures m == Unnamed ==> r.system == PromptClarity
    ensures r.model == ChatModel && r.temperatureTenths == 3 && r.maxTokens == 200
  {
    ChatRequest(ChatModel, TemplateFor(m), text, TemperatureTenths, MaxTokens)
  }

  // ---------------------------------------------------------------------------
  // The two branches
  // ---------------------------------------------------------------------------

  /** The rewrite branch: the matches applied to the text, or the basic polish
      of the text when the grammar service fails. It never answers with an
      error. */
  function RewriteResponse(text: string, outcome: GrammarOutcome): (r: Response)
    ensures r.Ok?
    ensures outcome.GrammarFailed? ==> r.result == BasicPolish(text) && EndsTerminal(r.result)
    ensures outcome.GrammarMatches? && NoSuggestions(outcome.matches) ==> r.result == text
  {
    match outcome
    case GrammarFailed => Ok(BasicPolish(text))
    case GrammarMatches(ms) =>
      Ok(ApplyMatches(text, ms))
  }

  /** The completion branch: an empty or missing content falls back to the
      basic polish of the text, so a successful answer is never empty. */
  function CompletionResponse(text: string, outcome: CompletionOutcome): (r: Response)
    ensures r.Ok? ==> |r.result| > 0
    ensures r.Ok? <==> outcome.Completed?
    ensures outcome == CompletionFailed ==> r == Error(ProcessingFailed)
    ensures outcome == NotOk ==> r == Error(ServiceError)
    ensures outcome.Completed? && outcome.content.Some? && outcome.content.value != "" ==>
              r.result == outcome.content.value
    ensures outcome.Completed? && (outcome.content.None? || outcome.content.value == "") ==>
              r.result == BasicPolish(text)
  {
    match outcome
    case CompletionFailed => Error(ProcessingFailed)
    case NotOk => Error(ServiceError)
    case Completed(content) =>
      if content.Some? && content.value != "" then Ok(content.value)
      else Ok(BasicPolish(text))
  }

  /** The answer to an accepted text: rewrite mode asks the grammar service
      and always answers 200; any other mode asks the completion service, and
      a 200 answer there is never empty. Every error from here on is a server
      error. */
  function Answer(
    text: string,
    mode: ModeValue,
    grammar: GrammarRequest -> GrammarOutcome,
    complete: ChatRequest -> CompletionOutcome): (r: Response)
    ensures IsRewrite(mode) ==> r.Ok?
    ensures r.Ok? && !IsRewrite(mode) ==> |r.result| > 0
    ensures r.Error? ==> Status(r.failure) == 500
  {
    if IsRewrite(mode) then
      RewriteResponse(text, grammar(GrammarRequest(text, Language)))
    else
      CompletionResponse(text, complete(ChatRequestFor(text, mode)))
  }

  // ---------------------------------------------------------------------------
  // The handler
  // ---------------------------------------------------------------------------

  /** The whole POST handler, with the grammar service and the completion
      service as parameters. */
  function Handle(
    body: Body,
    grammar: GrammarRequest -> GrammarOutcome,
    complete: ChatRequest -> CompletionOutcome): (r: Response)
    ensures r.Error? && Status(r.failure) == 400 <==> body.Fields? && (Blank(body.text) || TooLong(body.text))
    ensures r.Ok? ==> body.Fields? && CheckText(body.text).Accepted?
    ensures r.Ok? && !IsRewrite(EffectiveMode(body.mode)) ==> |r.result| > 0
    ensures body.Fields? && CheckText(body.text).Accepted? && IsRewrite(EffectiveMode(body.mode)) ==> r.Ok?
  {
    match body
    case NotJson => Error(ProcessingFailed)
    case NullBody => Error(ProcessingFailed)
    case Fields(textField, modeField) =>
      match CheckText(textField)
      case Rejected(failure) => Error(failure)
      case Accepted(text) => Answer(text, EffectiveMode(modeField), grammar, complete)
  }

  // ---------------------------------------------------------------------------
  // Properties of the handler
  // ---------------------------------------------------------------------------

  /** An accepted string passes the field check unchanged. */
  lemma StringAccepted(text: string)
    requires Admissible(text)
    ensures CheckText(Str(text)) == Accepted(text)
  {
  }

  /** An accepted text in rewrite mode goes to the grammar service. */
  lemma RewriteDispatch(text: string, mode: Field, grammar: GrammarRequest -> GrammarOutcome, complete: ChatRequest -> CompletionOutcome)
    requires Admissible(text) && IsRewrite(EffectiveMode(mode))
    ensures Handle(Fields(Str(text), mode), grammar, complete)
         == RewriteResponse(text, grammar(GrammarRequest(text, Language)))
  {
    StringAccepted(text);
  }

  /** An accepted text in any other mode goes to the completion service. */
  lemma CompletionDispatch(text: string, mode: Field, grammar: GrammarRequest -> GrammarOutcome, complete: ChatRequest -> CompletionOutcome)
    requires Admissible(text) && !IsRewrite(EffectiveMode(mode))
    ensures Handle(Fields(Str(text), mode), grammar, complete)
         == CompletionResponse(text, complete(ChatRequestFor(text, EffectiveMode(mode))))
  {
    StringAccepted(text);
  }

  /** The client can tell the four failures apart by their messages. */
  lemma MessagesDistinct(f: Failure, g: Failure)
    ensures Message(f) == Message(g) <==> f == g
  {
    if f != g {
      assert |Message(f)| != |Message(g)| || Message(f)[0] != Message(g)[0];
    }
  }

  /** A body that cannot be read ends in the catch-all answer. */
  lemma UnreadableBody(body: Body, grammar: GrammarRequest -> GrammarOutcome, complete: ChatRequest -> CompletionOutcome)
    requires body.NotJson? || body.NullBody?
    ensures Handle(body, grammar, complete) == Error(ProcessingFailed)
  {
  }

  /** A blank text is reported as required whatever its length: the blank
      check comes before the length check. */
  lemma BlankBeforeLength(s: string, mode: Field, grammar: GrammarRequest -> GrammarOutcome, complete: ChatRequest -> CompletionOutcome)
    requires AllSpace(s)
    ensures Handle(Fields(Str(s), mode), grammar, complete) == Error(TextRequired)
  {
  }

  /** Exactly MaxLength code units pass; one more is too long. */
  lemma LengthBoundary(s: string)
    requires !AllSpace(s)
    ensures Utf16Length(s) == MaxLength ==> CheckText(Str(s)) == Accepted(s)
    ensures Utf16Length(s) == MaxLength + 1 ==> CheckText(Str(s)) == Rejected(TextTooLong)
  {
  }

  /** A missing, null, empty or otherwise falsy mode behaves as "prompt". */
  lemma ModeDefaultsToPrompt(text: Field, mode: Field, grammar: GrammarRequest -> GrammarOutcome, complete: ChatRequest -> CompletionOutcome)
    requires mode.Absent? || mode == Str("") || mode == Other(false)
    ensures Handle(Fields(text, mode), grammar, complete)
         == Handle(Fields(text, Str("prompt")), grammar, complete)
  {
  }

  /** Before a text passes validation, neither service is consulted: the
      answer does not depend on them. */
  lemma RejectionIgnoresServices(
    body: Body,
    g1: GrammarRequest -> GrammarOutcome, c1: ChatRequest -> CompletionOutcome,
    g2: GrammarRequest -> GrammarOutcome, c2: ChatRequest -> CompletionOutcome)
    requires !body.Fields? || !CheckText(body.text).Accepted?
    ensures Handle(body, g1, c1) == Handle(body, g2, c2)
    ensures Handle(body, g1, c1).Error?
  {
  }

  /** The rewrite mode consults only the grammar service, with the text and
      the language "en-US"; the other modes consult only the completion
      service. */
  lemma ServicesByMode(
    text: string, mode: Field,
    g1: GrammarRequest -> GrammarOutcome, c1: ChatRequest -> CompletionOutcome,
    g2: GrammarRequest -> GrammarOutcome, c2: ChatRequest -> CompletionOutcome)
    requires Admissible(text)
    ensures IsRewrite(EffectiveMode(mode)) ==>
      Handle(Fields(Str(text), mode), g1, c1) == Handle(Fields(Str(text), mode), g1, c2)
    ensures IsRewrite(EffectiveMode(mode)) && g1(GrammarRequest(text, "en-US")) == g2(GrammarRequest(text, "en-US")) ==>
      Handle(Fields(Str(text), mode), g1, c1) == Handle(Fields(Str(text), mode), g2, c1)
    ensures !IsRewrite(EffectiveMode(mode)) ==>
      Handle(Fields(Str(text), mode), g1, c1) == Handle(Fields(Str(text), mode), g2, c1)
  {
    if IsRewrite(EffectiveMode(mode)) {
      RewriteDispatch(text, mode, g1, c1);
      RewriteDispatch(text, mode, g1, c2);
      RewriteDispatch(text, mode, g2, c1);
    } else {
      CompletionDispatch(text, mode, g1, c1);
      CompletionDispatch(text, mode, g2, c1);
    }
  }

  /** The request a non-rewrite mode sends: the model, the mode's system
      prompt with the text as the user message, temperature 0.3 and at most
      200 tokens. */
  lemma CompletionRequest(text: string, mode: string, grammar: GrammarRequest -> GrammarOutcome, complete: ChatRequest -> CompletionOutcome)
    requires Admissible(text) && mode != "" && mode != "rewrite"
    ensures Handle(Fields(Str(text), Str(mode)), grammar, complete)
         == CompletionResponse(text, complete(ChatRequest("llama-3.1-8b-instant", SystemPromptByMode(mode), text, 3, 200)))
  {
    CompletionDispatch(text, Str(mode), grammar, complete);
    assert ChatRequestFor(text, Named(mode))
        == ChatRequest("llama-3.1-8b-instant", SystemPromptByMode(mode), text, 3, 200);
  }

  /** Rewrite mode: a failing grammar service yields the basic polish of the
      text; otherwise the matches are applied, and disjoint matches inside the
      text replace their regions and keep everything else. */
  lemma RewriteOutcomes(text: string, grammar: GrammarRequest -> GrammarOutcome, complete: ChatRequest -> CompletionOutcome)
    requires Admissible(text)
    ensures var r := Handle(Fields(Str(text), Str("rewrite")), grammar, complete);
            match grammar(GrammarRequest(text, "en-US"))
            case GrammarFailed => r == Ok(BasicPolish(text))
            case GrammarMatches(ms) =>
              && r == Ok(ApplyMatches(text, ms))
              && (Disjoint(ms) && AllInBounds(ms, |text|) ==>
                    Chained(SortByOffsetDesc(ms)) && AllInBounds(SortByOffsetDesc(ms), |text|) &&
                    r == Ok(Patched(text, SortByOffsetDesc(ms))))
  {
    RewriteDispatch(text, Str("rewrite"), grammar, complete);
    match grammar(GrammarRequest(text, "en-US"))
    case GrammarFailed =>
    case GrammarMatches(ms) =>
      if Disjoint(ms) && AllInBounds(ms, |text|) {
        ApplyMatchesPatches(text, ms);
      }
  }

  /** A non-rewrite mode whose completion request throws (or whose reply is
      not JSON) ends in the catch-all answer. */
  lemma CompletionThrows(text: string, mode: Field, grammar: GrammarRequest -> GrammarOutcome, complete: ChatRequest -> CompletionOutcome)
    requires Admissible(text) && !IsRewrite(EffectiveMode(mode))
    requires complete(ChatRequestFor(text, EffectiveMode(mode))) == CompletionFailed
    ensures Handle(Fields(Str(text), mode), grammar, complete) == Error(ProcessingFailed)
  {
    CompletionDispatch(text, mode, grammar, complete);
  }

  /** A reply whose status is not ok is reported as a service error. */
  lemma CompletionNotOk(text: string, mode: Field, grammar: GrammarRequest -> GrammarOutcome, complete: ChatRequest -> CompletionOutcome)
    requires Admissible(text) && !IsRewrite(EffectiveMode(mode))
    requires complete(ChatRequestFor(text, EffectiveMode(mode))) == NotOk
    ensures Handle(Fields(Str(text), mode), grammar, complete) == Error(ServiceError)
  {
    CompletionDispatch(text, mode, grammar, complete);
  }

  /** A reply without content, or with empty content, falls back to the basic
      polish of the text. */
  lemma CompletionWithoutContent(text: string, mode: Field, grammar: GrammarRequest -> GrammarOutcome, complete: ChatRequest -> CompletionOutcome)
    requires Admissible(text) && !IsRewrite(EffectiveMode(mode))
    requires complete(ChatRequestFor(text, EffectiveMode(mode))) in {Completed(None), Completed(Some(""))}
    ensures Handle(Fields(Str(text), mode), grammar, complete) == Ok(BasicPolish(text))
  {
    CompletionDispatch(text, mode, grammar, complete);
  }

  /** A reply with non-empty content is answered with that content as it is. */
  lemma CompletionWithContent(text: string, mode: Field, grammar: GrammarRequest -> GrammarOutcome, complete: ChatRequest -> CompletionOutcome, content: string)
    requires Admissible(text) && !IsRewrite(EffectiveMode(mode))
    requires complete(ChatRequestFor(text, EffectiveMode(mode))) == Completed(Some(content)) && content != ""
    ensures Handle(Fields(Str(text), mode), grammar, complete) == Ok(content)
  {
    CompletionDispatch(text, mode, grammar, complete);
  }

}

=== FILE: polish.dfy ===
/** The deterministic fallback formatter `basicPolish` of the polish route.

    It runs five steps in a fixed order: trim, collapse each whitespace run to
    one space, delete whitespace directly before `. , ! ?`, uppercase the first
    character, and append `.` unless the text already ends in `. ! ?`. Each step
    is a function of its own so that its effect can be stated separately.
 */
module Polish {
  import opened Chars

  // ---------------------------------------------------------------------------
  // Vocabulary
  // ---------------------------------------------------------------------------

  /** Every character of s is whitespace (vacuously true of the empty string). */
  predicate AllSpace(s: string) {
    forall i :: 0 <= i < |s| ==> IsSpace(s[i])
  }

  /** The non-whitespace characters of s, in order. */
  function NonSpace(s: string): (w: string)
    ensures |w| <= |s|
    ensures forall i :: 0 <= i < |w| ==> !IsSpace(w[i])
    ensures |w| == 0 <==> AllSpace(s)
  {
    if s == [] then []
    else if IsSpace(s[0]) then NonSpace(s[1..])
    else [s[0]] + NonSpace(s[1..])
  }

  /** s neither starts nor ends with whitespace. */
  predicate NoEdgeSpace(s: string) {
    |s| == 0 || (!IsSpace(s[0]) && !IsSpace(s[|s| - 1]))
  }

  /** Every whitespace character of s is a plain space and is followed by a
      non-whitespace character or by the end of s. */
  predicate SingleSpaced(s: string) {
    forall i :: 0 <= i < |s| && IsSpace(s[i]) ==> s[i] == ' ' && (i + 1 < |s| ==> !IsSpace(s[i + 1]))
  }

  /** No whitespace character of s is directly followed by `. , ! ?`. */
  predicate NoSpaceBeforePunct(s: string) {
    forall i :: 0 <= i < |s| - 1 && IsSpace(s[i]) ==> !IsPunct(s[i + 1])
  }

  /** s ends in `. ! ?`. */
  predicate EndsTerminal(s: string) {
    |s| > 0 && IsTerminal(s[|s| - 1])
  }

  lemma {:induction false} NonSpaceAppend(a: string, b: string)
    ensures NonSpace(a + b) == NonSpace(a) + NonSpace(b)
    decreases |a|
  {
    if a == [] {
      assert a + b == b;
    } else {
      assert (a + b)[0] == a[0];
      assert (a + b)[1..] == a[1..] + b;
      NonSpaceAppend(a[1..], b);
    }
  }

  // ---------------------------------------------------------------------------
  // Step 1: trim
  // ---------------------------------------------------------------------------

  /** Drops the leading whitespace run: the result is a suffix of s that is
      empty or starts with a non-whitespace character. */
  function TrimStart(s: string): (r: string)
    ensures |r| <= |s| && r == s[|s| - |r|..]
    ensures r == [] || !IsSpace(r[0])
    ensures |s| > 0 && IsSpace(s[0]) ==> |r| < |s|
    decreases |s|
  {
    if s != [] && IsSpace(s[0]) then TrimStart(s[1..]) else s
  }

  /** What TrimStart removes is whitespace. */
  lemma {:induction false} TrimStartRemovesSpace(s: string)
    ensures forall i :: 0 <= i < |s| - |TrimStart(s)| ==> IsSpace(s[i])
    decreases |s|
  {
    if s != [] && IsSpace(s[0]) {
      TrimStartRemovesSpace(s[1..]);
    }
  }

  /** TrimStart keeps the non-whitespace content. */
  lemma {:induction false} TrimStartNonSpace(s: string)
    ensures NonSpace(TrimStart(s)) == NonSpace(s)
    decreases |s|
  {
    if s != [] && IsSpace(s[0]) {
      TrimStartNonSpace(s[1..]);
    }
  }

  /** Drops the trailing whitespace run: the result is a prefix of s that is
      empty or ends with a non-whitespace character. */
  function TrimEnd(s: string): (r: string)
    ensures |r| <= |s| && r == s[..|r|]
    ensures r == [] || !IsSpace(r[|r| - 1])
    decreases |s|
  {
    if s != [] && IsSpace(s[|s| - 1]) then TrimEnd(s[..|s| - 1]) else s
  }

  /** What TrimEnd removes is whitespace. */
  lemma {:induction false} TrimEndRemovesSpace(s: string)
    ensures forall i :: |TrimEnd(s)| <= i < |s| ==> IsSpace(s[i])
    decreases |s|
  {
    if s != [] && IsSpace(s[|s| - 1]) {
      TrimEndRemovesSpace(s[..|s| - 1]);
    }
  }

  /** TrimEnd keeps the non-whitespace content. */
  lemma {:induction false} TrimEndNonSpace(s: string)
    ensures NonSpace(TrimEnd(s)) == NonSpace(s)
    decreases |s|
  {
    if s != [] && IsSpace(s[|s| - 1]) {
      var init := s[..|s| - 1];
      TrimEndNonSpace(init);
      assert s == init + [s[|s| - 1]];
      NonSpaceAppend(init, [s[|s| - 1]]);
      assert NonSpace([s[|s| - 1]]) == [];
    }
  }

  /** `input.trim()`. */
  function Trim(s: string): (r: string)
    ensures NoEdgeSpace(r)
  {
    TrimEnd(TrimStart(s))
  }

  /** Trim removes a whitespace-only prefix and a whitespace-only suffix and
      nothing else: the result is the contiguous part s[k..k + |r|] of s, every
      character outside it is whitespace, it holds all of the non-whitespace
      characters of s, and it is empty exactly for blank input. */
  lemma {:induction false} TrimSpec(s: string)
    ensures var r := Trim(s); var k := |s| - |TrimStart(s)|;
            && k + |r| <= |s| && r == s[k..k + |r|]
            && (forall i :: 0 <= i < |s| && !(k <= i < k + |r|) ==> IsSpace(s[i]))
            && NonSpace(r) == NonSpace(s)
            && (|r| == 0 <==> AllSpace(s))
  {
    TrimSlice(s);
    TrimDropsSpace(s);
    TrimNonSpace(s);
    TrimEmpty(s);
  }

  lemma {:induction false} TrimSlice(s: string)
    ensures var r := Trim(s); var k := |s| - |TrimStart(s)|;
            k + |r| <= |s| && r == s[k..k + |r|]
  {
    var t := TrimStart(s);
    var r := TrimEnd(t);
    var k := |s| - |t|;
    assert r == s[k..][..|r|];
  }

  lemma {:induction false} TrimDropsSpace(s: string)
    ensures var r := Trim(s); var k := |s| - |TrimStart(s)|;
            forall i :: 0 <= i < |s| && !(k <= i < k + |r|) ==> IsSpace(s[i])
  {
    var t := TrimStart(s);
    var r := TrimEnd(t);
    var k := |s| - |t|;
    TrimStartRemovesSpace(s);
    TrimEndRemovesSpace(t);
    forall i | 0 <= i < |s| && !(k <= i < k + |r|)
      ensures IsSpace(s[i])
    {
      if i >= k {
        assert s[i] == t[i - k];
        assert |r| <= i - k < |t|;
      }
    }
  }

  lemma {:induction false} TrimNonSpace(s: string)
    ensures NonSpace(Trim(s)) == NonSpace(s)
  {
    TrimStartNonSpace(s);
    TrimEndNonSpace(TrimStart(s));
  }

  lemma {:induction false} TrimEmpty(s: string)
    ensures |Trim(s)| == 0 <==> AllSpace(s)
  {
    TrimNonSpace(s);
    var r := Trim(s);
    if |r| > 0 {
      assert !IsSpace(r[0]);
      assert !AllSpace(r);
    }
  }

  /** TrimStart stops at or before the first non-whitespace character. */
  lemma {:induction false} TrimStartKeeps(s: string, i: int)
    requires 0 <= i < |s| && !IsSpace(s[i])
    ensures |TrimStart(s)| >= |s| - i
    decreases |s|
  {
    if IsSpace(s[0]) {
      assert s[1..][i - 1] == s[i];
      TrimStartKeeps(s[1..], i - 1);
    }
  }

  // ---------------------------------------------------------------------------
  // Step 2: collapse whitespace runs
  // ---------------------------------------------------------------------------

  /** `text.replace(/\s+/g, " ")`: every maximal whitespace run becomes one
      plain space. The result is empty only for empty input and starts with
      the input's first character, or with a space where that is whitespace. */
  function Collapse(s: string): (r: string)
    ensures |r| <= |s|
    ensures |s| > 0 ==> |r| > 0 && r[0] == (if IsSpace(s[0]) then ' ' else s[0])
    decreases |s|
  {
    if s == [] then []
    else if IsSpace(s[0]) then
      var t := TrimStart(s);
      [' '] + Collapse(t)
    else
      [s[0]] + Collapse(s[1..])
  }

  /** After collapsing, whitespace is single plain spaces. */
  lemma {:induction false} CollapseSingleSpaced(s: string)
    ensures SingleSpaced(Collapse(s))
    decreases |s|
  {
    if s == [] {
    } else if IsSpace(s[0]) {
      var t := TrimStart(s);
      CollapseSingleSpaced(t);
      assert Collapse(s) == [' '] + Collapse(t);
      SingleSpacedCons(' ', Collapse(t));
    } else {
      CollapseSingleSpaced(s[1..]);
      assert Collapse(s) == [s[0]] + Collapse(s[1..]);
      SingleSpacedCons(s[0], Collapse(s[1..]));
    }
  }

  /** Collapsing keeps every non-whitespace character, in order. */
  lemma {:induction false} CollapseNonSpace(s: string)
    ensures NonSpace(Collapse(s)) == NonSpace(s)
    decreases |s|
  {
    if s == [] {
    } else if IsSpace(s[0]) {
      var t := TrimStart(s);
      CollapseNonSpace(t);
      TrimStartNonSpace(s);
      NonSpaceAppend(" ", Collapse(t));
    } else {
      CollapseNonSpace(s[1..]);
      NonSpaceAppend([s[0]], Collapse(s[1..]));
    }
  }

  /** Collapsing keeps the last character when it is not whitespace. */
  lemma {:induction false} CollapseLast(s: string)
    requires |s| > 0 && !IsSpace(s[|s| - 1])
    ensures var r := Collapse(s); |r| > 0 && r[|r| - 1] == s[|s| - 1]
    decreases |s|
  {
    if IsSpace(s[0]) {
      var t := TrimStart(s);
      TrimStartKeeps(s, |s| - 1);
      assert t == s[|s| - |t|..];
      assert t[|t| - 1] == s[|s| - 1];
      CollapseLast(t);
      assert Collapse(s) == [' '] + Collapse(t);
      LastOfCons(' ', Collapse(t));
    } else if |s| > 1 {
      assert s[1..][|s| - 2] == s[|s| - 1];
      CollapseLast(s[1..]);
      assert Collapse(s) == [s[0]] + Collapse(s[1..]);
      LastOfCons(s[0], Collapse(s[1..]));
    } else {
      assert s[1..] == [];
      assert Collapse(s) == [s[0]];
    }
  }

  lemma LastOfCons(c: char, r: string)
    requires |r| > 0
    ensures ([c] + r)[|r|] == r[|r| - 1]
  {
  }

  /** A single-spaced string is left alone by collapsing. */
  lemma {:induction false} CollapseFixed(s: string)
    requires SingleSpaced(s)
    ensures Collapse(s) == s
    decreases |s|
  {
    if s == [] {
    } else {
      assert SingleSpaced(s[1..]) by {
        forall i | 0 <= i < |s[1..]| && IsSpace(s[1..][i])
          ensures s[1..][i] == ' ' && (i + 1 < |s[1..]| ==> !IsSpace(s[1..][i + 1]))
        {
          assert s[1..][i] == s[i + 1];
        }
      }
      CollapseFixed(s[1..]);
      assert s == [s[0]] + s[1..];
      if IsSpace(s[0]) {
        assert s[1..] == [] || !IsSpace(s[1..][0]);
        assert TrimStart(s[1..]) == s[1..];
        assert TrimStart(s) == s[1..];
        assert Collapse(s) == " " + Collapse(s[1..]);
      } else {
        assert Collapse(s) == [s[0]] + Collapse(s[1..]);
      }
    }
  }

  // ---------------------------------------------------------------------------
  // Step 3: delete whitespace before punctuation
  // ---------------------------------------------------------------------------

  /** The whitespace run at the head of s is directly followed by `. , ! ?`. */
  predicate RunBeforePunct(s: string) {
    var t := TrimStart(s);
    t != [] && IsPunct(t[0])
  }

  /** `text.replace(/\s+([.,!?])/g, "$1")`: every maximal whitespace run that
      is directly followed by `. , ! ?` is deleted. A non-whitespace first
      character is kept; a leading `. , ! ?` in the result is the first
      non-whitespace character of the input. */
  function DropSpaceBeforePunct(s: string): (r: string)
    ensures |r| <= |s|
    ensures |s| > 0 && !IsSpace(s[0]) ==> |r| > 0 && r[0] == s[0]
    ensures |r| > 0 && IsPunct(r[0]) ==> var t := TrimStart(s); t != [] && t[0] == r[0]
    decreases |s|
  {
    if s == [] then []
    else if IsSpace(s[0]) && RunBeforePunct(s) then
      var t := TrimStart(s);
      DropSpaceBeforePunct(t)
    else
      [s[0]] + DropSpaceBeforePunct(s[1..])
  }

  /** After the deletion no whitespace stands directly before `. , ! ?`. */
  lemma {:induction false} DropNoSpaceBeforePunct(s: string)
    ensures NoSpaceBeforePunct(DropSpaceBeforePunct(s))
    decreases |s|
  {
    if s == [] {
    } else if IsSpace(s[0]) && RunBeforePunct(s) {
      assert DropSpaceBeforePunct(s) == DropSpaceBeforePunct(TrimStart(s));
      DropNoSpaceBeforePunct(TrimStart(s));
    } else {
      var rest := DropSpaceBeforePunct(s[1..]);
      assert DropSpaceBeforePunct(s) == [s[0]] + rest;
      DropNoSpaceBeforePunct(s[1..]);
      if IsSpace(s[0]) {
        assert TrimStart(s[1..]) == TrimStart(s);
      }
      NoSpaceBeforePunctCons(s[0], rest);
    }
  }

  /** Prepending one character keeps "no whitespace before punctuation" unless
      a whitespace character lands in front of `. , ! ?`. */
  lemma NoSpaceBeforePunctCons(c: char, rest: string)
    requires NoSpaceBeforePunct(rest)
    requires IsSpace(c) ==> rest == [] || !IsPunct(rest[0])
    ensures NoSpaceBeforePunct([c] + rest)
  {
    var s := [c] + rest;
    forall i | 0 <= i < |s| - 1 && IsSpace(s[i])
      ensures !IsPunct(s[i + 1])
    {
      if i > 0 {
        assert s[i] == rest[i - 1] && s[i + 1] == rest[i];
      }
    }
  }

  /** The deletion keeps every non-whitespace character, in order. */
  lemma {:induction false} DropNonSpace(s: string)
    ensures NonSpace(DropSpaceBeforePunct(s)) == NonSpace(s)
    decreases |s|
  {
    if s == [] {
    } else if IsSpace(s[0]) && RunBeforePunct(s) {
      DropNonSpace(TrimStart(s));
      TrimStartNonSpace(s);
    } else {
      DropNonSpace(s[1..]);
      NonSpaceAppend([s[0]], DropSpaceBeforePunct(s[1..]));
    }
  }

  /** The deletion keeps the last character when it is not whitespace. */
  lemma {:induction false} DropLast(s: string)
    requires |s| > 0 && !IsSpace(s[|s| - 1])
    ensures var r := DropSpaceBeforePunct(s); |r| > 0 && r[|r| - 1] == s[|s| - 1]
    decreases |s|
  {
    if IsSpace(s[0]) && RunBeforePunct(s) {
      var t := TrimStart(s);
      assert DropSpaceBeforePunct(s) == DropSpaceBeforePunct(t);
      assert t[|t| - 1] == s[|s| - 1];
      DropLast(t);
    } else if |s| > 1 {
      assert s[1..][|s| - 2] == s[|s| - 1];
      DropLast(s[1..]);
      var d := DropSpaceBeforePunct(s[1..]);
      assert DropSpaceBeforePunct(s) == [s[0]] + d;
      assert ([s[0]] + d)[|d|] == d[|d| - 1];
    } else {
      assert s[1..] == [];
      assert DropSpaceBeforePunct(s) == [s[0]];
    }
  }

  /** Prepending one character keeps single spacing when that character is not
      whitespace, or is a plain space in front of a non-whitespace character. */
  lemma SingleSpacedCons(c: char, rest: string)
    requires SingleSpaced(rest)
    requires IsSpace(c) ==> c == ' ' && (rest == [] || !IsSpace(rest[0]))
    ensures SingleSpaced([c] + rest)
  {
    var s := [c] + rest;
    forall i | 0 <= i < |s| && IsSpace(s[i])
      ensures s[i] == ' ' && (i + 1 < |s| ==> !IsSpace(s[i + 1]))
    {
      if i > 0 {
        assert s[i] == rest[i - 1];
        if i + 1 < |s| { assert s[i + 1] == rest[i]; }
      }
    }
  }

  /** The deletion does not create adjacent or non-plain whitespace. */
  lemma {:induction false} DropSingleSpaced(s: string)
    requires SingleSpaced(s)
    ensures SingleSpaced(DropSpaceBeforePunct(s))
    decreases |s|
  {
    if s == [] {
    } else {
      assert SingleSpaced(s[1..]) by {
        forall i | 0 <= i < |s[1..]| && IsSpace(s[1..][i])
          ensures s[1..][i] == ' ' && (i + 1 < |s[1..]| ==> !IsSpace(s[1..][i + 1]))
        {
          assert s[1..][i] == s[i + 1];
        }
      }
      DropSingleSpaced(s[1..]);
      if IsSpace(s[0]) && RunBeforePunct(s) {
        assert TrimStart(s) == s[1..];
      } else {
        var rest := DropSpaceBeforePunct(s[1..]);
        if IsSpace(s[0]) && |s| > 1 {
          assert !IsSpace(s[1]);
          assert rest[0] == s[1];
        }
        SingleSpacedCons(s[0], rest);
      }
    }
  }

  /** A string with no whitespace before `. , ! ?` and single spacing is left
      alone by the deletion. */
  lemma {:induction false} DropFixed(s: string)
    requires SingleSpaced(s) && NoSpaceBeforePunct(s)
    ensures DropSpaceBeforePunct(s) == s
    decreases |s|
  {
    if s == [] {
    } else {
      assert SingleSpaced(s[1..]) && NoSpaceBeforePunct(s[1..]) by {
        forall i | 0 <= i < |s[1..]| && IsSpace(s[1..][i])
          ensures s[1..][i] == ' ' && (i + 1 < |s[1..]| ==> !IsSpace(s[1..][i + 1]))
        {
          assert s[1..][i] == s[i + 1];
        }
        forall i | 0 <= i < |s[1..]| - 1 && IsSpace(s[1..][i])
          ensures !IsPunct(s[1..][i + 1])
        {
          assert s[1..][i] == s[i + 1];
        }
      }
      DropFixed(s[1..]);
      if IsSpace(s[0]) {
        assert TrimStart(s) == s[1..];
      }
    }
  }

  // ---------------------------------------------------------------------------
  // Steps 4 and 5
  // ---------------------------------------------------------------------------

  /** `text.charAt(0).toUpperCase() + text.slice(1)`. */
  function UpperFirst(s: string): (r: string)
    ensures |r| == |s|
    ensures |s| > 0 ==> r[0] == ToUpper(s[0]) && r[1..] == s[1..]
  {
    if s == [] then [] else [ToUpper(s[0])] + s[1..]
  }

  /** `if (!/[.!?]$/.test(text)) text += "."`. */
  function EnsureTerminal(s: string): (r: string)
    ensures EndsTerminal(r)
    ensures EndsTerminal(s) ==> r == s
    ensures !EndsTerminal(s) ==> r == s + "."
  {
    if EndsTerminal(s) then s else s + "."
  }

  // ---------------------------------------------------------------------------
  // The whole function
  // ---------------------------------------------------------------------------

  /** The whitespace shape basicPolish produces: no whitespace at either end,
      only single plain spaces inside, none directly before `. , ! ?`. */
  predicate Tidy(s: string) {
    NoEdgeSpace(s) && SingleSpaced(s) && NoSpaceBeforePunct(s)
  }

  /** Steps 1 to 3 (trim, collapse, delete whitespace before punctuation):
      they produce the tidy whitespace shape and keep every non-whitespace
      character of the input, in order; the result is empty only for blank
      input. */
  function Normalize(s: string): (n: string)
    ensures Tidy(n)
    ensures NonSpace(n) == NonSpace(s)
    ensures |n| == 0 <==> AllSpace(s)
  {
    NormalizeProof(s);
    DropSpaceBeforePunct(Collapse(Trim(s)))
  }

  lemma NormalizeProof(s: string)
    ensures var n := DropSpaceBeforePunct(Collapse(Trim(s)));
            Tidy(n) && NonSpace(n) == NonSpace(s) && (|n| == 0 <==> AllSpace(s))
  {
    var t := Trim(s);
    TrimSpec(s);
    var c := Collapse(t);
    CollapseSingleSpaced(t);
    CollapseNonSpace(t);
    if |t| > 0 { CollapseLast(t); }
    DropNoSpaceBeforePunct(c);
    DropNonSpace(c);
    DropSingleSpaced(c);
    if |c| > 0 { DropLast(c); }
  }

  lemma {:induction false} NonSpaceLast(s: string)
    requires |s| > 0 && !IsSpace(s[|s| - 1])
    ensures NonSpace(s) == NonSpace(s[..|s| - 1]) + [s[|s| - 1]]
  {
    assert s == s[..|s| - 1] + [s[|s| - 1]];
    NonSpaceAppend(s[..|s| - 1], [s[|s| - 1]]);
  }

  /** Uppercasing the first character keeps the tidy shape. */
  lemma TidyUpperFirst(n: string)
    requires Tidy(n)
    ensures Tidy(UpperFirst(n))
  {
    if n != [] {
      var u := UpperFirst(n);
      ToUpperKeepsClass(n[0]);
      assert u == [ToUpper(n[0])] + n[1..];
      assert SingleSpaced(n[1..]) by {
        forall i | 0 <= i < |n[1..]| && IsSpace(n[1..][i])
          ensures n[1..][i] == ' ' && (i + 1 < |n[1..]| ==> !IsSpace(n[1..][i + 1]))
        {
          assert n[1..][i] == n[i + 1];
        }
      }
      SingleSpacedCons(ToUpper(n[0]), n[1..]);
      forall i | 0 <= i < |u| - 1 && IsSpace(u[i])
        ensures !IsPunct(u[i + 1])
      {
        assert i > 0 && u[i] == n[i] && u[i + 1] == n[i + 1];
      }
      assert u[|u| - 1] == if |n| == 1 then ToUpper(n[0]) else n[|n| - 1];
    }
  }

  /** Appending the period keeps the tidy shape. */
  lemma TidyEnsureTerminal(u: string)
    requires Tidy(u)
    ensures Tidy(EnsureTerminal(u))
  {
    if !EndsTerminal(u) {
      var r := u + ".";
      forall i | 0 <= i < |r| && IsSpace(r[i])
        ensures r[i] == ' ' && (i + 1 < |r| ==> !IsSpace(r[i + 1]))
      {
        assert i < |u| && r[i] == u[i];
        if i + 1 < |u| { assert r[i + 1] == u[i + 1]; }
      }
      forall i | 0 <= i < |r| - 1 && IsSpace(r[i])
        ensures !IsPunct(r[i + 1])
      {
        assert i < |u| && r[i] == u[i];
        if i + 1 < |u| { assert r[i + 1] == u[i + 1]; }
      }
    }
  }

  /** `basicPolish(input)`. The result ends in `. ! ?`, has the tidy
      whitespace shape and does not start with a lower-case letter. Apart from
      whitespace it is the input's non-whitespace characters with the first
      one uppercased, followed by `.` exactly when the last of them is not
      `. ! ?`. Blank input gives ".". */
  function BasicPolish(s: string): (r: string)
    ensures EndsTerminal(r)
    ensures Tidy(r)
    ensures !IsLower(r[0])
    ensures var w := NonSpace(s);
            NonSpace(r) == UpperFirst(w) + (if EndsTerminal(w) then "" else ".")
    ensures AllSpace(s) ==> r == "."
  {
    BasicPolishProof(Normalize(s), NonSpace(s));
    EnsureTerminal(UpperFirst(Normalize(s)))
  }

  lemma BasicPolishProof(n: string, w: string)
    requires Tidy(n) && NonSpace(n) == w
    ensures var r := EnsureTerminal(UpperFirst(n));
            && Tidy(r) && !IsLower(r[0])
            && NonSpace(r) == UpperFirst(w) + (if EndsTerminal(w) then "" else ".")
            && (n == [] ==> r == ".")
  {
    var u := UpperFirst(n);
    TidyUpperFirst(n);
    TidyEnsureTerminal(u);
    if n != [] {
      ToUpperKeepsClass(n[0]);
    }
    UpperFirstContent(n, w);
    NonSpaceAppend(u, ".");
  }

  /** Uppercasing the first character never changes whether the text ends a
      sentence. */
  lemma UpperFirstEndsTerminal(n: string)
    ensures EndsTerminal(UpperFirst(n)) <==> EndsTerminal(n)
  {
    if |n| > 0 {
      ToUpperKeepsClass(n[0]);
      if |n| > 1 {
        assert UpperFirst(n)[|n| - 1] == UpperFirst(n)[1..][|n| - 2] == n[1..][|n| - 2];
      }
    }
  }

  /** Uppercasing the first character of tidy text uppercases the first of its
      non-whitespace characters and keeps whether it ends in `. ! ?`. */
  lemma UpperFirstContent(n: string, w: string)
    requires Tidy(n) && NonSpace(n) == w
    ensures NonSpace(UpperFirst(n)) == UpperFirst(w)
    ensures EndsTerminal(UpperFirst(n)) <==> EndsTerminal(w)
  {
    if n != [] {
      var u := UpperFirst(n);
      ToUpperKeepsClass(n[0]);
      assert n == [n[0]] + n[1..];
      NonSpaceAppend([n[0]], n[1..]);
      assert u == [ToUpper(n[0])] + n[1..];
      NonSpaceAppend([ToUpper(n[0])], n[1..]);
      NonSpaceLast(n);
      UpperFirstEndsTerminal(n);
    }
  }

  // ---------------------------------------------------------------------------
  // Idempotence
  // ---------------------------------------------------------------------------

  /** A string basicPolish can return: tidy whitespace, ends in `. ! ?`, and
      does not start with a lower-case letter. */
  predicate Polished(r: string) {
    Tidy(r) && EndsTerminal(r) && !IsLower(r[0])
  }

  /** basicPolish leaves exactly the polished strings unchanged: its fixed
      points are its possible results. */
  lemma {:induction false} BasicPolishFixedPoints(r: string)
    ensures BasicPolish(r) == r <==> Polished(r)
  {
    if Polished(r) {
      assert TrimStart(r) == r;
      assert TrimEnd(r) == r;
      CollapseFixed(r);
      DropFixed(r);
      assert Normalize(r) == r;
      assert UpperFirst(r) == [r[0]] + r[1..] == r;
    }
  }

  /** basicPolish is idempotent. */
  lemma {:induction false} BasicPolishIdempotent(s: string)
    ensures BasicPolish(BasicPolish(s)) == BasicPolish(s)
  {
    BasicPolishFixedPoints(BasicPolish(s));
  }

  // ---------------------------------------------------------------------------
  // A one-pass reference for steps 1 to 3
  // ---------------------------------------------------------------------------

  /** One left-to-right pass over s that says directly what steps 1 to 3 are
      for: whitespace before the first and after the last non-whitespace
      character disappears, and between two non-whitespace characters that
      whitespace separates there is exactly one space, or none when the second
      one is `. , ! ?`. `started` records that a non-whitespace character has
      been emitted, `pending` that whitespace has been skipped since then. */
  function TidyScan(s: string, started: bool, pending: bool): string
    decreases |s|
  {
    if s == [] then []
    else if IsSpace(s[0]) then TidyScan(s[1..], started, started)
    else (if pending && !IsPunct(s[0]) then " " else "") + [s[0]] + TidyScan(s[1..], true, false)
  }

  /** The pass consumes a whole whitespace run the same way as its first
      character. */
  lemma {:induction false} ScanSkipsRun(t: string, started: bool, pending: bool)
    requires t != [] && IsSpace(t[0])
    ensures TidyScan(t, started, pending) == TidyScan(TrimStart(t), started, started)
    decreases |t|
  {
    if t[1..] != [] && IsSpace(t[1]) {
      ScanSkipsRun(t[1..], started, started);
    }
  }

  /** Whitespace-only input produces nothing. */
  lemma {:induction false} ScanAllSpace(v: string, started: bool, pending: bool)
    requires AllSpace(v)
    ensures TidyScan(v, started, pending) == []
    decreases |v|
  {
    if v != [] {
      ScanAllSpace(v[1..], started, started);
    }
  }

  /** Trailing whitespace produces nothing. */
  lemma {:induction false} ScanTrailingSpace(x: string, v: string, started: bool, pending: bool)
    requires AllSpace(v)
    ensures TidyScan(x + v, started, pending) == TidyScan(x, started, pending)
    decreases |x|
  {
    if x == [] {
      assert x + v == v;
      ScanAllSpace(v, started, pending);
    } else {
      assert (x + v)[0] == x[0] && (x + v)[1..] == x[1..] + v;
      if IsSpace(x[0]) {
        ScanTrailingSpace(x[1..], v, started, started);
      } else {
        ScanTrailingSpace(x[1..], v, true, false);
      }
    }
  }

  /** Before a `. , ! ?` the pending flag makes no difference. */
  lemma ScanPunctIgnoresPending(t: string, started: bool, p: bool, q: bool)
    requires t != [] && IsPunct(t[0])
    ensures TidyScan(t, started, p) == TidyScan(t, started, q)
  {
    TerminalIsPunct(t[0]);
  }

  /** Dropping trailing whitespace does not change the pass. */
  lemma {:induction false} ScanTrimEnd(t: string, started: bool, pending: bool)
    ensures TidyScan(TrimEnd(t), started, pending) == TidyScan(t, started, pending)
    decreases |t|
  {
    if t != [] && IsSpace(t[|t| - 1]) {
      var u := t[..|t| - 1];
      assert t == u + [t[|t| - 1]];
      ScanTrimEnd(u, started, pending);
      ScanTrailingSpace(u, [t[|t| - 1]], started, pending);
    }
  }

  /** Trimming does not change the pass. */
  lemma ScanTrim(s: string)
    ensures TidyScan(Trim(s), false, false) == TidyScan(s, false, false)
  {
    if s != [] && IsSpace(s[0]) {
      ScanSkipsRun(s, false, false);
    }
    ScanTrimEnd(TrimStart(s), false, false);
  }

  /** Collapsing does not change the pass. */
  lemma {:induction false} ScanCollapse(t: string, started: bool, pending: bool)
    ensures TidyScan(Collapse(t), started, pending) == TidyScan(t, started, pending)
    decreases |t|
  {
    if t == [] {
    } else if IsSpace(t[0]) {
      var rest := TrimStart(t);
      assert Collapse(t) == [' '] + Collapse(rest);
      assert TidyScan([' '] + Collapse(rest), started, pending) == TidyScan(Collapse(rest), started, started);
      ScanCollapse(rest, started, started);
      ScanSkipsRun(t, started, pending);
    } else {
      assert Collapse(t) == [t[0]] + Collapse(t[1..]);
      ScanCollapse(t[1..], true, false);
    }
  }

  /** Deleting whitespace before punctuation does not change the pass. */
  lemma {:induction false} ScanDrop(c: string, started: bool, pending: bool)
    ensures TidyScan(DropSpaceBeforePunct(c), started, pending) == TidyScan(c, started, pending)
    decreases |c|
  {
    if c == [] {
    } else if IsSpace(c[0]) && RunBeforePunct(c) {
      var t := TrimStart(c);
      assert DropSpaceBeforePunct(c) == DropSpaceBeforePunct(t);
      ScanDrop(t, started, pending);
      ScanSkipsRun(c, started, pending);
      ScanPunctIgnoresPending(t, started, started, pending);
    } else if IsSpace(c[0]) {
      var d := DropSpaceBeforePunct(c[1..]);
      assert DropSpaceBeforePunct(c) == [c[0]] + d;
      assert TidyScan([c[0]] + d, started, pending) == TidyScan(d, started, started);
      ScanDrop(c[1..], started, started);
    } else {
      assert DropSpaceBeforePunct(c) == [c[0]] + DropSpaceBeforePunct(c[1..]);
      ScanDrop(c[1..], true, false);
    }
  }

  /** Single spacing and "no whitespace before punctuation" hold of every
      suffix. */
  lemma SuffixKeepsShape(n: string, k: nat)
    requires k <= |n|
    ensures SingleSpaced(n) ==> SingleSpaced(n[k..])
    ensures NoSpaceBeforePunct(n) ==> NoSpaceBeforePunct(n[k..])
  {
    var m := n[k..];
    if SingleSpaced(n) {
      forall i | 0 <= i < |m| && IsSpace(m[i])
        ensures m[i] == ' ' && (i + 1 < |m| ==> !IsSpace(m[i + 1]))
      {
        assert m[i] == n[k + i];
        if i + 1 < |m| { assert m[i + 1] == n[k + i + 1]; }
      }
    }
    if NoSpaceBeforePunct(n) {
      forall i | 0 <= i < |m| - 1 && IsSpace(m[i])
        ensures !IsPunct(m[i + 1])
      {
        assert m[i] == n[k + i] && m[i + 1] == n[k + i + 1];
      }
    }
  }

  /** After the first word, the pass reproduces text that is already single
      spaced, has no whitespace before punctuation and no trailing whitespace. */
  lemma {:induction false} ScanOfTidyTail(n: string)
    requires SingleSpaced(n) && NoSpaceBeforePunct(n)
    requires n == [] || !IsSpace(n[|n| - 1])
    ensures TidyScan(n, true, false) == n
    decreases |n|
  {
    if n == [] {
    } else if IsSpace(n[0]) {
      assert n[0] == ' ' && |n| >= 2 && !IsSpace(n[1]) && !IsPunct(n[1]);
      SuffixKeepsShape(n, 2);
      ScanOfTidyTail(n[2..]);
      assert TidyScan(n[1..], true, true) == " " + [n[1]] + TidyScan(n[2..], true, false) by {
        assert n[1..][0] == n[1] && n[1..][1..] == n[2..];
      }
      assert n == [n[0]] + [n[1]] + n[2..];
    } else {
      SuffixKeepsShape(n, 1);
      ScanOfTidyTail(n[1..]);
      assert n == [n[0]] + n[1..];
    }
  }

  /** The pass reproduces tidy text. */
  lemma ScanOfTidy(n: string)
    requires Tidy(n)
    ensures TidyScan(n, false, false) == n
  {
    if n != [] {
      SuffixKeepsShape(n, 1);
      ScanOfTidyTail(n[1..]);
      assert n == [n[0]] + n[1..];
    }
  }

  /** Steps 1 to 3 compute exactly the one-pass reference. */
  lemma NormalizeIsTidyScan(s: string)
    ensures Normalize(s) == TidyScan(s, false, false)
  {
    var t := Trim(s);
    var c := Collapse(t);
    ScanOfTidy(Normalize(s));
    ScanDrop(c, false, false);
    ScanCollapse(t, false, false);
    ScanTrim(s);
  }

  /** Steps 4 and 5 change the normalised text n in only two ways: its first
      character is uppercased, and one `.` is appended exactly when n does not
      already end in `. ! ?`. With NormalizeIsTidyScan this pins down the
      result of basicPolish completely. */
  lemma BasicPolishEdits(s: string)
    ensures var n := TidyScan(s, false, false); var r := BasicPolish(s);
            && |r| == |n| + (if EndsTerminal(n) then 0 else 1)
            && (|n| > 0 ==> r[0] == ToUpper(n[0]) && r[1..|n|] == n[1..])
            && (!EndsTerminal(n) ==> r[|n|] == '.')
  {
    NormalizeIsTidyScan(s);
    CapitaliseAndPunctuate(Normalize(s));
  }

  lemma CapitaliseAndPunctuate(n: string)
    ensures var r := EnsureTerminal(UpperFirst(n));
            && |r| == |n| + (if EndsTerminal(n) then 0 else 1)
            && (|n| > 0 ==> r[0] == ToUpper(n[0]) && r[1..|n|] == n[1..])
            && (!EndsTerminal(n) ==> r[|n|] == '.')
  {
    var u := UpperFirst(n);
    var r := EnsureTerminal(u);
    if n != [] {
      UpperFirstEndsTerminal(n);
      assert r[..|n|] == u;
      assert r[1..|n|] == u[1..];
    }
  }
}

=== FILE: prompts.dfy ===
/** The system prompts the route sends to the completion service in the
    non-rewrite modes: one template per mode, with the prompt-clarity template
    as the default for every other mode value.
 */
module Prompts {

  datatype Template = ResumeBullet | LinkedInPost | EmailBody | PromptClarity

  /** The `switch` of systemPromptByMode; the case labels compare with `===`,
      so the match is exact and case-sensitive. */
  function SystemPromptByMode(mode: string): (t: Template)
    ensures t == ResumeBullet <==> mode == "resume"
    ensures t == LinkedInPost <==> mode == "linkedin"
    ensures t == EmailBody <==> mode == "email"
    ensures t == PromptClarity <==> mode != "resume" && mode != "linkedin" && mode != "email"
  {
    if mode == "resume" then ResumeBullet
    else if mode == "linkedin" then LinkedInPost
    else if mode == "email" then EmailBody
    else PromptClarity
  }

  /** The mode a client names to get each template; "prompt" is the mode the
      route falls back to when none is given. */
  function ModeOf(t: Template): string {
    match t
    case ResumeBullet => "resume"
    case LinkedInPost => "linkedin"
    case EmailBody => "email"
    case PromptClarity => "prompt"
  }

  /** Every template is reachable, from the mode ModeOf names for it. */
  lemma ModeOfSelects(t: Template)
    ensures SystemPromptByMode(ModeOf(t)) == t
  {
  }

  /** ModeOf names back exactly the four modes the route distinguishes;
      every other mode string shares the default template with "prompt". */
  lemma SelectedModeRoundTrip(mode: string)
    ensures ModeOf(SystemPromptByMode(mode)) == mode
        <==> mode in {"resume", "linkedin", "email", "prompt"}
  {
  }
}

=== FILE: scenarios.dfy ===
/** Worked examples of the fallback polisher and a general law about plain
    sentences that the examples instantiate. */
module Scenarios {
  import opened Chars
  import opened Polish
  import opened Edits
  import opened Handler

  /** A non-empty run of non-whitespace characters. */
  predicate Word(w: string) {
    w != [] && forall i :: 0 <= i < |w| ==> !IsSpace(w[i])
  }

  /** A word that does not begin with `. , ! ?`, so the space before it
      survives. */
  predicate PlainWord(w: string) {
    Word(w) && !IsPunct(w[0])
  }

  /** The words separated by single spaces. */
  function Join(ws: seq<string>): string
    requires |ws| > 0
    decreases |ws|
  {
    if |ws| == 1 then ws[0] else ws[0] + " " + Join(ws[1..])
  }

  /** A word is copied through unchanged when no whitespace is pending. */
  lemma {:induction false} ScanWord(w: string, rest: string, started: bool)
    requires Word(w)
    ensures TidyScan(w + rest, started, false) == w + TidyScan(rest, true, false)
    decreases |w|
  {
    assert (w + rest)[0] == w[0] && (w + rest)[1..] == w[1..] + rest;
    if |w| == 1 {
      assert w[1..] + rest == rest;
    } else {
      ScanWord(w[1..], rest, true);
      assert w == [w[0]] + w[1..];
    }
  }

  /** After skipped whitespace, a plain word gets one space in front of it. */
  lemma ScanWordAfterSpace(w: string, rest: string)
    requires PlainWord(w)
    ensures TidyScan(w + rest, true, true) == [' '] + w + TidyScan(rest, true, false)
  {
    assert (w + rest)[0] == w[0] && (w + rest)[1..] == w[1..] + rest;
    if |w| == 1 {
      assert w[1..] + rest == rest;
    } else {
      ScanWord(w[1..], rest, true);
      assert w == [w[0]] + w[1..];
    }
  }

  /** A space in front of the text only marks whitespace as pending. */
  lemma ScanSpace(j: string, started: bool, pending: bool)
    ensures TidyScan([' '] + j, started, pending) == TidyScan(j, started, started)
  {
    assert ([' '] + j)[1..] == j;
  }

  /** One word and the space after it, when whitespace was pending. */
  lemma ScanJoinInnerStep(w: string, j: string)
    requires PlainWord(w) && TidyScan(j, true, true) == [' '] + j
    ensures TidyScan(w + ([' '] + j), true, true) == [' '] + (w + ([' '] + j))
  {
    ScanWordAfterSpace(w, [' '] + j);
    ScanSpace(j, true, false);
  }

  /** A single-spaced run of plain words after pending whitespace keeps its
      words and gets one space in front. */
  lemma {:induction false} ScanJoinInner(ws: seq<string>)
    requires |ws| > 0 && forall i :: 0 <= i < |ws| ==> PlainWord(ws[i])
    ensures TidyScan(Join(ws), true, true) == [' '] + Join(ws)
    decreases |ws|
  {
    if |ws| == 1 {
      ScanWordAfterSpace(ws[0], []);
      assert ws[0] + [] == ws[0];
    } else {
      ScanJoinInner(ws[1..]);
      assert Join(ws) == ws[0] + ([' '] + Join(ws[1..]));
      ScanJoinInnerStep(ws[0], Join(ws[1..]));
    }
  }

  /** The pass leaves a single-spaced run of plain words as it is. */
  lemma ScanJoin(ws: seq<string>)
    requires |ws| > 0 && forall i :: 0 <= i < |ws| ==> PlainWord(ws[i])
    ensures TidyScan(Join(ws), false, false) == Join(ws)
  {
    if |ws| == 1 {
      ScanWord(ws[0], [], false);
      assert ws[0] + [] == ws[0];
    } else {
      var j := Join(ws[1..]);
      ScanJoinInner(ws[1..]);
      assert Join(ws) == ws[0] + ([' '] + j);
      ScanWord(ws[0], [' '] + j, false);
      ScanSpace(j, true, false);
    }
  }

  /** Leading whitespace produces nothing. */
  lemma {:induction false} ScanLeadingSpace(v: string, x: string)
    requires AllSpace(v)
    ensures TidyScan(v + x, false, false) == TidyScan(x, false, false)
    decreases |v|
  {
    if v != [] {
      assert (v + x)[0] == v[0] && (v + x)[1..] == v[1..] + x;
      assert IsSpace(v[0]);
      assert AllSpace(v[1..]) by {
        forall i | 0 <= i < |v[1..]| ensures IsSpace(v[1..][i]) {
          assert v[1..][i] == v[i + 1];
        }
      }
      ScanLeadingSpace(v[1..], x);
    } else {
      assert v + x == x;
    }
  }

  /** Steps 1 to 3 reduce a sentence of plain words with any whitespace
      around it to the words separated by single spaces. */
  lemma NormalizeSentence(lead: string, ws: seq<string>, trail: string)
    requires AllSpace(lead) && AllSpace(trail)
    requires |ws| > 0 && forall i :: 0 <= i < |ws| ==> PlainWord(ws[i])
    ensures Normalize(lead + Join(ws) + trail) == Join(ws)
  {
    var j := Join(ws);
    ScanTrailingSpace(lead + j, trail, false, false);
    ScanLeadingSpace(lead, j);
    ScanJoin(ws);
    NormalizeIsTidyScan(lead + j + trail);
  }

  /** Uppercasing the first character only touches the first piece. */
  lemma UpperFirstAppend(w: string, r: string)
    requires w != []
    ensures UpperFirst(w + r) == UpperFirst(w) + r
  {
    assert (w + r)[0] == w[0] && (w + r)[1..] == w[1..] + r;
  }

  /** Steps 4 and 5 on a sentence: a full stop is added exactly when the last
      word does not end one. */
  lemma CapitaliseSentence(ws: seq<string>)
    requires |ws| > 0 && forall i :: 0 <= i < |ws| ==> PlainWord(ws[i])
    ensures EnsureTerminal(UpperFirst(Join(ws)))
         == UpperFirst(Join(ws)) + (if EndsTerminal(ws[|ws| - 1]) then "" else ".")
  {
    var j := Join(ws);
    JoinLast(ws);
    UpperFirstEndsTerminal(j);
  }

  /** A sentence of plain words with any whitespace around it polishes to the
      same words, single-spaced, with the first letter uppercased and a full
      stop after the last word when it does not already end a sentence. */
  lemma SentencePolish(lead: string, ws: seq<string>, trail: string)
    requires AllSpace(lead) && AllSpace(trail)
    requires |ws| > 0 && forall i :: 0 <= i < |ws| ==> PlainWord(ws[i])
    ensures BasicPolish(lead + Join(ws) + trail)
         == UpperFirst(Join(ws)) + (if EndsTerminal(ws[|ws| - 1]) then "" else ".")
  {
    var s := lead + Join(ws) + trail;
    NormalizeSentence(lead, ws, trail);
    CapitaliseSentence(ws);
    assert BasicPolish(s) == EnsureTerminal(UpperFirst(Normalize(s)));
  }

  /** A joined sentence ends with the last character of its last word. */
  lemma {:induction false} JoinLast(ws: seq<string>)
    requires |ws| > 0 && ws[|ws| - 1] != []
    ensures |Join(ws)| > 0 && Join(ws)[|Join(ws)| - 1] == ws[|ws| - 1][|ws[|ws| - 1]| - 1]
    decreases |ws|
  {
    if |ws| > 1 {
      JoinLast(ws[1..]);
    }
  }

  /** "  the report need to be done by friday  " becomes "The report need to
      be done by friday.": edge whitespace goes, the first letter is
      uppercased and a full stop is added. */
  const ReportWordList: seq<string> := ["the", "report", "need", "to", "be", "done", "by", "friday"]

  lemma ReportWords()
    ensures forall i :: 0 <= i < |ReportWordList| ==> PlainWord(ReportWordList[i])
    ensures !EndsTerminal(ReportWordList[|ReportWordList| - 1])
  {
    assert PlainWord("the") && PlainWord("report") && PlainWord("need") && PlainWord("to");
    assert PlainWord("be") && PlainWord("done") && PlainWord("by") && PlainWord("friday");
  }

  lemma ReportCapital()
    ensures UpperFirst(Join(ReportWordList)) == Join(["The", "report", "need", "to", "be", "done", "by", "friday"])
  {
    var ws := ReportWordList;
    var rest := " " + Join(ws[1..]);
    assert Join(ws) == "the" + rest;
    UpperFirstAppend("the", rest);
    assert UpperFirst("the") == "The";
  }

  lemma ReportSentence()
    ensures BasicPolish("  " + Join(ReportWordList) + "  ") == Join(["The", "report", "need", "to", "be", "done", "by", "friday"]) + "."
  {
    ReportWords();
    ReportCapital();
    assert AllSpace("  ");
    SentencePolish("  ", ReportWordList, "  ");
  }

  /** "hello" becomes "Hello.". */
  lemma HelloScan()
    ensures TidyScan("hello", false, false) == "hello"
  {
  }

  lemma HelloCapital()
    ensures EnsureTerminal(UpperFirst("hello")) == "Hello."
  {
  }

  lemma Hello()
    ensures BasicPolish("hello") == "Hello."
  {
    NormalizeIsTidyScan("hello");
    HelloScan();
    HelloCapital();
  }

  /** "Already done." comes back unchanged. */
  const AlreadyDoneList: seq<string> := ["Already", "done."]

  lemma AlreadyDoneWords()
    ensures forall i :: 0 <= i < |AlreadyDoneList| ==> PlainWord(AlreadyDoneList[i])
    ensures EndsTerminal(AlreadyDoneList[|AlreadyDoneList| - 1])
  {
    assert PlainWord("Already") && PlainWord("done.");
  }

  lemma AlreadyDoneCapital()
    ensures UpperFirst(Join(AlreadyDoneList)) == Join(AlreadyDoneList)
  {
    assert Join(AlreadyDoneList) == "Already" + " done.";
    UpperFirstAppend("Already", " done.");
    assert UpperFirst("Already") == "Already";
  }

  lemma AlreadyDone()
    ensures BasicPolish(Join(AlreadyDoneList)) == Join(AlreadyDoneList)
  {
    var s := Join(AlreadyDoneList);
    AlreadyDoneWords();
    AlreadyDoneCapital();
    assert "" + s + "" == s;
    SentencePolish("", AlreadyDoneList, "");
  }

  lemma HelloAccepted()
    ensures CheckString("hello") == Accepted("hello")
  {
    var s := "hello";
    assert !IsSpace(s[0]);
    assert |s| == 5 && forall i :: 0 <= i < |s| ==> s[i] as int < 0x1_0000;
  }

  /** Rewrite mode with the grammar service down answers with the basic
      polish. */
  lemma RewriteHelloOffline(grammar: GrammarRequest -> GrammarOutcome, complete: ChatRequest -> CompletionOutcome)
    requires grammar(GrammarRequest("hello", "en-US")) == GrammarFailed
    ensures Handle(Fields(Str("hello"), Str("rewrite")), grammar, complete) == Ok("Hello.")
  {
    HelloAccepted();
    RewriteOutcomes("hello", grammar, complete);
    Hello();
  }

  /** One grammar correction spliced into the text. */
  lemma OneCorrection()
    ensures ApplyMatches("He go home.", [Match(3, 2, ["goes", "went"])]) == "He goes home."
  {
    var text, m := "He go home.", Match(3, 2, ["goes", "went"]);
    assert SortByOffsetDesc([m]) == [m];
    assert ApplyInOrder(text, [m]) == ApplyMatch(text, m);
    assert text[..3] == "He " && text[5..] == " home.";
  }
}
